=== FILE: README.md ===
# GeoBase request core in Dafny

GeoBase is a multi-tenant backend. Companies own users and geographically
placed "storypoints", and storypoints carry attached files. All tenants share
the same collections, and every company-scoped request runs the same chain
of guards before it touches data:

1. `verifyJWT` resolves the caller from the `authorization` header (401).
2. `companyExists` checks the company in the path (404).
3. A membership lookup checks that the caller belongs to it (403).

This project models that core of `src/app.ts` as pure Dafny functions over an
immutable store:

- `base.dfy`: options, ids, the `find`/`findOne`/`$pull` primitives and the
  status codes.
- `records.dfy`: the companies, users, storypoints, file metadata and token
  blacklist of `src/types.ts`. Also the membership and existence lookups, the
  `$push`/`$pull` updates of the reverse id lists, and the `deleteOne`
  removals.
- `validation.dfy`: the password and filename regular expressions as
  predicates, with a scanner method proved equal to each. Also the
  `checkEmail`, `checkPasssword` and `checkFilename` verdicts.
- `auth.dfy`: `verifyJWT`, `blacklistJWT`, the company and file-route guard
  chains, login and logout.
- `ranking.dfy`: the nearby ranking. It measures every storypoint, sorts
  them stably by distance and slices to the limit. The radius filter's
  result is discarded, so the radius filters nothing.
- `reads.dfy`: the read routes (own user, storypoint list, search, nearby,
  one storypoint, member list, one member).
- `writes.dfy`: storypoint and user create/edit/delete, and company
  registration.
- `attachments.dfy`: the file metadata routes (list, upload, download,
  delete, rename).
- `consistency.dfy`: the store invariant the write routes keep, and the
  uniqueness rules some routes test but do not keep.
- `server.dfy`: the write routes as one request type. It proves that a trace
  of requests keeps the invariant and that logged-out headers stay revoked.
  Registration is dispatched to the corrected handler (see "## Findings").
  The handler as written leaves the same store and differs only in the
  status, so the results about stores hold for the code as written too.

Every handler returns `Refused(status)`, which leaves the store unchanged, or
`Served(status, next, body)`. `next` is the whole store after the route's
writes.

The following are parameters of the model, collected in a `Services` value:
- token signing and verification;
- bcrypt hashing and comparison;
- the e-mail regular expression;
- `parseFloat`;
- the haversine distance;
- the Fuse fuzzy search.

The clock is a parameter of each handler. The configuration switches
(e-mail, password and filename validation, upload size, nearby limit and
radius) are a `Config` value. An absent header is the empty string, since
both are falsy in the source.

Some rules are enforced by one route and not kept by another. The model
follows each route as written:
- Coordinates unique within a company: the create route refuses a second
  storypoint at the same coordinates of the company with 409
  (`src/app.ts:459-462`). The edit route does not test them again, and
  `Consistency.EditStorypointCanDuplicateCoords` shows it can put two
  storypoints of a company at one place.
- Filenames unique under a storypoint: the upload route refuses a name
  already used under the storypoint id with 409 (`src/app.ts:748-751`). The
  rename route tests the name only under that storypoint and company and then
  renames by file id alone (`src/app.ts:950-958`), and
  `Consistency.RenameCanDuplicateNames` shows it can leave two files of one
  name under one storypoint.
- No route cascades a delete: removing a storypoint or a user removes that
  record and its id in the owning list, and nothing else
  (`src/app.ts:658-662`, `684-688`, `877-881`). The model does the same.
- The file routes run `storypointExists`, which ignores the company, before
  the membership test (`src/app.ts:733-741`).
  `Attachments.FileRoutesRevealForeignStorypoints` states what that discloses
  to members of other companies.

## Model

| member | source | states |
|---|---|---|
| Base.Find | src/app.ts:83-97 | `findOne` finds a record iff some record satisfies the filter, and the record found is in the collection and satisfies it |
| Base.Filter | src/app.ts:291 | every record `find` returns is in the collection and satisfies the filter, and every record satisfying it is returned |
| Base.FilterAppend | src/app.ts:291 | `find` keeps collection order: filtering a concatenation is filtering each part, first part first |
| Base.Pull | src/app.ts:659-662 | after `$pull` the list holds exactly the ids it held except the pulled one |
| Base.FilterKeepsAll | src/app.ts:291 | a filter every element passes returns the collection unchanged |
| Base.FilterKeepsDistinct | src/app.ts:684 | removing documents keeps the survivors' distinct keys distinct |
| Base.FreshId | src/app.ts:474-475 | an inserted document's id is above every id already in the collection |
| Records.CompanyStorypoints | src/app.ts:291 | the company-filtered storypoint list holds exactly the storypoints whose `company_id` is the company |
| Records.CompanyUsers | src/app.ts:410 | the company-filtered user list holds exactly the users of the company |
| Records.CompanyStorypointsAppend | src/app.ts:291 | the company's storypoints from the first part of a split collection come first, then those from the second: `find` keeps store order |
| Records.CompanyUsersAppend | src/app.ts:410 | the company's users come out in store order, the first part of a split collection first |
| Records.PushUserId | src/app.ts:513-516 | `$push` on `user_ids`: the company with that id gains the user id at the end of its list; every other company is unchanged, every other field is unchanged, and the set of company ids is the same |
| Records.PullUserId | src/app.ts:685-688 | `$pull` on `user_ids`: an id is in a company's list afterwards iff it was before and is not the pulled id of the matching company; other companies and fields are unchanged |
| Records.PushStorypointId | src/app.ts:475-478 | `$push` on `storypoint_ids`: the matching company gains the storypoint id at the end; other companies and fields are unchanged, and the company ids are the same |
| Records.PullStorypointId | src/app.ts:659-662 | `$pull` on `storypoint_ids`: the id leaves the matching company's list only; membership in every list changes exactly that way, and nothing else changes |
| Records.PushFileId | src/app.ts:767-770 | `$push` on `files`: only the storypoint matching both the id and the company gains the file id, at the end; other storypoints and fields are unchanged |
| Records.PullFileId | src/app.ts:878-881 | `$pull` on `files`: the file id leaves only the storypoint matching both id and company; other storypoints and fields are unchanged |
| Records.DropUser | src/app.ts:684 | `deleteOne` by user id keeps exactly the other users, and keeps ids and e-mails distinct |
| Records.DropStorypoint | src/app.ts:658 | `deleteOne` by storypoint id keeps exactly the other storypoints |
| Records.DropFile | src/app.ts:877 | `deleteOne` by file id keeps exactly the other files |
| Validation.PasswordAcceptedIff | src/app.ts:21 | with validation on, a password passes `checkPasssword` iff it is at least eight UTF-16 code units long or holds a line break, and holds a digit, an upper-case letter, a lower-case letter and a character outside `[a-zA-Z0-9]`; with validation off every password passes |
| Validation.ShortPasswordWithLineBreakPasses | src/app.ts:21 | `.` does not match a line break, so a short password containing one is accepted |
| Validation.ScanPassword | src/app.ts:127-133 | one scan of the password, counting UTF-16 code units, decides exactly the `checkPasssword` verdict |
| Validation.AstralCharactersCountTwice | src/app.ts:21 | a character outside the Basic Multilingual Plane is two UTF-16 code units, so a six-character password with two emoji passes the length test |
| Validation.FilenameAcceptedIff | src/app.ts:135-145 | a filename passes iff it is a string and, with validation on, is non-empty and made of word characters, `-`, `.` and space |
| Validation.AcceptedFilenameHasNoSeparator | src/app.ts:22 | an accepted filename under validation is non-empty and contains no `/` or `\` |
| Validation.ScanFilename | src/app.ts:135-145 | one scan of the filename decides exactly the `checkFilename` verdict |
| Validation.EmailVerdict | src/app.ts:115-125 | `checkEmail` answers 409 iff any user has the address, then 400 iff validation is on and the pattern fails |
| Auth.StripBearer | src/app.ts:157 | `replace('Bearer ', "")` removes the first occurrence of the prefix wherever it is, keeping what is before and after it, and leaves a string without the prefix unchanged |
| Auth.VerifyJwt | src/app.ts:147-173 | the header is refused with 401 iff it is empty, blacklisted as a whole string, or fails verification after stripping; otherwise the caller is the token's claim |
| Auth.BlacklistJwt | src/app.ts:175-180 | afterwards the blacklist holds exactly the old entries and the token, is unchanged when the token was present, and stays free of duplicates |
| Auth.BlacklistIdempotent | src/app.ts:175-180 | blacklisting twice is blacklisting once |
| Auth.CompanyGate | src/app.ts:279-290 | the company guard chain answers 401, then 404, then 403 in that order, and passes iff the caller is a member |
| Auth.FileGate | src/app.ts:725-741 | the file-route guard chain tests the storypoint id in any company (404) before membership (403) |
| Auth.UserByEmail | src/app.ts:236 | the login lookup finds a user iff the address is in use, and the user found has it |
| Auth.Login | src/app.ts:235-248 | 404 iff no user has the address, 401 iff the password does not match the user the lookup finds, otherwise 200 with a token for that user's id and address and no store change |
| Auth.Logout | src/app.ts:250-257 | a verified header is blacklisted and nothing else changes; a refused one changes nothing |
| Auth.LogoutRevokesHeader | src/app.ts:250-257 | after a successful logout the same header is refused with 401 |
| Auth.LogoutSparesOtherHeaders | src/app.ts:175-180 | logging out one header leaves every other header's verification as it was |
| Auth.RevocationIsPerHeaderString | src/app.ts:152-157 | the blacklist matches the raw header, so the same token sent without the `Bearer ` prefix still verifies |
| Ranking.Insert | src/app.ts:361 | insertion keeps the list stably sorted by distance and is a permutation |
| Ranking.SortByDistance | src/app.ts:361 | the stable sort yields a permutation, sorted by distance, with ties in collection order |
| Ranking.RankEntries | src/app.ts:349-361 | every storypoint is measured once and the measured list is stably sorted |
| Ranking.Nearby | src/app.ts:349-364 | the answer has `min(limit, n)` entries (slice semantics), in ascending distance, each a measured storypoint of the company |
| Ranking.NearbyTiesKeepCollectionOrder | src/app.ts:361 | equally distant storypoints keep their collection order |
| Ranking.NearbyKeepsTheNearest | src/app.ts:361-362 | a storypoint left out is farther than every one kept, or exactly as far as a kept one that comes earlier in the collection: the stable sort and `slice` keep the earlier of equally distant storypoints |
| Ranking.NearbyTieAtTheLimitKeepsTheEarlier | src/app.ts:361-362 | of two equally distant storypoints with a limit of one, the answer is the earlier one |
| Ranking.NearbyIgnoresRadius | src/app.ts:363 | the radius filter's result is discarded, so with a large limit every storypoint is returned however far |
| Reads.GetUser | src/app.ts:259-276 | 401 iff verification fails; for a verified caller, 200 iff a user has the token's id, with that user's id, name, address and company, and 404 otherwise; no store change |
| Reads.LoggedInUserSeesOwnRecord | src/app.ts:235-276 | with ids unique, the token a login answers with, sent as `Bearer <token>` and not revoked, makes `GET /api/user` answer 200 with that user's own record |
| Reads.ListStorypoints | src/app.ts:279-300 | after the company guards, exactly the company's storypoints as id, title and coordinates, one summary per storypoint in the order `find` returns them |
| Reads.StorypointListKeepsStoreOrder | src/app.ts:291-299 | the listed summaries follow store order: for a collection split in two, the first part's storypoints are listed first, each once |
| Reads.SearchStorypoints | src/app.ts:303-330 | 400 before any guard when the query is absent or not a string; otherwise only summaries of the company's storypoints |
| Reads.NearbyStorypoints | src/app.ts:333-365 | 400 before any guard when a coordinate is falsy; otherwise the answer is the nearby ranking (`Ranking.Nearby`) of the company's storypoints around the parsed point, so the nearest-first, tie and radius lemmas all apply to the route |
| Reads.GetStorypoint | src/app.ts:368-395 | 404 iff the company has no storypoint with that id; otherwise that storypoint's public fields |
| Reads.ListUsers | src/app.ts:398-419 | after the company guards, every entry is the id, name and address of a user of the company, and every such user is listed, one entry per user in the order `find` returns them, without password hashes |
| Reads.MemberListKeepsStoreOrder | src/app.ts:410-418 | the member list follows store order: for a collection split in two, the first part's users are listed first, each once |
| Reads.CompanyMembersListed | src/app.ts:398-419 | every user of the company appears in the member list, and only they do |
| Reads.GetCompanyUser | src/app.ts:422-445 | 404 iff the company has no user with that id; otherwise that user without the hash |
| Reads.GateReadsOnlyAuthority | src/app.ts:83-97 | the company guard depends only on the blacklist, the users and which companies exist |
| Reads.RefusedCallerLearnsNothing | src/app.ts:279-445 | a caller the guards refuse gets the same answer whatever the company's storypoints and users are |
| Writes.CreatedStorypoint | src/app.ts:463-472 | the new storypoint records creator, company and time, defaults the title to the coordinates' text and the description to empty, and starts with no history or files |
| Writes.AddStorypoint | src/app.ts:448-481 | guards, then 409 iff the company already has a storypoint at those coordinates; otherwise the storypoint is appended with a fresh id and listed on its company |
| Writes.Patched | src/app.ts:583-589 | each field of the patch replaces the stored one only when truthy |
| Writes.EditStorypoint | src/app.ts:568-597 | 404 iff the company has no such storypoint; otherwise exactly the matching record is patched |
| Writes.DeleteStorypoint | src/app.ts:641-664 | 404 iff the company has no such storypoint; otherwise it is removed and pulled from the company's list |
| Writes.AddUser | src/app.ts:484-520 | 404 before 401 before 403, then 409 iff the address is in use (the company test, then the global one in `checkEmail`), then the e-mail pattern, then `checkPasssword`; served iff every guard and check passes, and then the user is appended with the hashed password and listed on the company |
| Writes.UserPatchVerdict | src/app.ts:616-627 | a given e-mail is checked first and its verdict wins; the password, when given, is checked only after an e-mail that passed or was not given, and its failure gives 400 |
| Writes.UserPatched | src/app.ts:620-633 | a given address and a given password (hashed) replace the stored ones, and a truthy name replaces the name |
| Writes.EditUser | src/app.ts:600-638 | 404 iff the company has no such user; then the patch verdict; otherwise every record with that id is updated |
| Writes.DeleteUser | src/app.ts:667-690 | 404 iff the company has no such user; otherwise the user is removed and pulled from the company's list |
| Writes.RegistrationVerdict | src/app.ts:527-539 | `checkEmail`'s verdict wins; after it passes, a failing `checkPasssword` gives 400; after both pass, a taken company name gives 409 |
| Writes.Registering | src/app.ts:540-562 | registration creates one company and one user of it, lists the user on the company, and signs a token for that user |
| Writes.RegisterCompanyAsWritten | src/app.ts:523-565 | as written: a logged-in caller gets 403, and every other caller gets 401, because `verifyJWT` has already answered; the company and user are still created when the checks pass, so the store left is exactly the one the corrected handler leaves |
| Writes.RegistrationAnswers401WhileRegistering | src/app.ts:524-564 | a valid registration on an empty store creates the company and user yet answers 401 |
| Writes.RegisterCompany | src/app.ts:523-565 | corrected: 403 for logged-in callers, the verdict's status on a failed check, and 201 with the new ids and token otherwise |
| Writes.RegisteredUserCanLogIn | src/app.ts:235-248 | after a corrected registration the new user is a member of the new company and can log in with the registration password, receiving the same token |
| Attachments.Located | src/app.ts:706 | the storypoint lookup by id and company finds one iff it exists in that company |
| Attachments.FilesAmong | src/app.ts:711-721 | `$in` keeps exactly the files whose id is in the storypoint's list, mapped to the answer fields |
| Attachments.ListFiles | src/app.ts:693-722 | company guards, 404 iff the company has no such storypoint; otherwise the files the storypoint lists |
| Attachments.NextFileId | src/app.ts:751-753 | a stored file gets an id no file has |
| Attachments.UploadFile | src/app.ts:725-780 | file guards, then 400 on size, then `checkFilename`, then 409 if the name exists under the storypoint id in any company; otherwise the file is recorded and pushed onto the storypoint of that company |
| Attachments.DownloadFile | src/app.ts:829-855 | file guards, then 404 unless the file is recorded under that storypoint and company |
| Attachments.DeleteFile | src/app.ts:858-883 | file guards, 404 unless the file is under that storypoint and company; otherwise it is removed and pulled from the storypoint |
| Attachments.RenameFile | src/app.ts:935-962 | file guards, 409 on a name taken under that storypoint and company before `checkFilename`; otherwise every file with that id is renamed, wherever it is |
| Attachments.FileRoutesRevealForeignStorypoints | src/app.ts:699-745 | for a member of another company, the file routes answer 403 or 404 according to whether the storypoint id exists anywhere, while the list route answers 403 |
| Attachments.ForeignUploadBlocksTheName | src/app.ts:725-780 | an upload through another company's path records the file under the storypoint id without listing it, and that name is then refused for the storypoint |
| Attachments.RenameReachesAnyFile | src/app.ts:954-958 | the rename updates the file by id alone, so a file of another storypoint or company is renamed |
| Consistency.EmptyIsConsistent | src/types.ts:20-43 | the empty database satisfies the store invariant |
| Consistency.AddStorypointKeepsConsistent | src/app.ts:448-481 | adding a storypoint keeps the invariant |
| Consistency.AddUserKeepsConsistent | src/app.ts:484-520 | adding a user keeps the invariant, address uniqueness included |
| Consistency.RegisterCompanyKeepsConsistent | src/app.ts:523-565 | registering keeps the invariant |
| Consistency.EditStorypointKeepsConsistent | src/app.ts:568-597 | editing a storypoint keeps the invariant |
| Consistency.EditUserKeepsConsistent | src/app.ts:600-638 | editing a user keeps the invariant, address uniqueness included |
| Consistency.DeleteStorypointKeepsConsistent | src/app.ts:641-664 | deleting a storypoint keeps the invariant |
| Consistency.DeleteUserKeepsConsistent | src/app.ts:667-690 | deleting a user keeps the invariant |
| Consistency.UploadFileKeepsConsistent | src/app.ts:725-780 | uploading keeps the invariant |
| Consistency.DeleteFileKeepsConsistent | src/app.ts:858-883 | deleting a file keeps the invariant |
| Consistency.RenameFileKeepsConsistent | src/app.ts:935-962 | renaming keeps the invariant |
| Consistency.LogoutKeepsConsistent | src/app.ts:250-257 | logging out keeps the invariant |
| Consistency.ListedFilesBelongToTheStorypoint | src/app.ts:693-722 | in a consistent store the file list holds only files recorded under that storypoint and company |
| Consistency.AddStorypointKeepsCoordsUnique | src/app.ts:459-462 | the add route keeps coordinates unique within a company |
| Consistency.EditStorypointCanDuplicateCoords | src/app.ts:580-596 | the edit route does not test the coordinates again and can put two storypoints of a company at one place |
| Consistency.UploadFileKeepsNamesUnique | src/app.ts:748-751 | the upload route keeps names unique per storypoint |
| Consistency.RenameCanDuplicateNames | src/app.ts:950-961 | the rename route can leave two files of one name under one storypoint |
| Server.HandleKeepsConsistent | src/app.ts:235-962 | every write request takes a consistent store to a consistent store |
| Server.RunKeepsConsistent | src/app.ts:235-962 | every trace of write requests keeps the invariant |
| Server.HandleKeepsBlacklist | src/app.ts:175-180 | no request removes a blacklisted header, and only logout adds one |
| Server.RunKeepsBlacklist | src/app.ts:175-180 | a blacklisted header stays blacklisted across any trace |
| Server.LoggedOutStaysOut | src/app.ts:147-180 | after a logout, the header is refused with 401 after any later trace |
| Server.RevokedHeaderChangesNothing | src/app.ts:147-156 | every route except registration refuses a revoked header with 401, or 404 where the company test comes first, and changes nothing |

## Left out

- `src/app.js` is an earlier, smaller version of the server and is not modelled. It keeps sessions with `express-session` instead of JWTs, leaves login as a TODO, does not await `companyExists`, and has fewer and different routes. `src/app.ts` is the server modelled here.
- JWT signing and verification, bcrypt, the e-mail regular expression, `parseFloat` and the haversine formula are uninterpreted `Services` functions. Their internals (cryptography, floating point) are not modelled.
- Fuse search is an uninterpreted function returning positions in the company corpus. Its scoring and ordering are not modelled.
- The nearby `distanceString` formatting (`toFixed(1)`, metres) is not modelled, because it is floating-point text.
- Reads.NearbyStorypoints: `parseFloat` yielding NaN, and the NaN comparison in the sort, are not modelled, because they are floating point.
- The thumbnail route (`src/app.ts:886-932`) is not modelled: image processing and GridFS.
- The archive route (`src/app.ts:783-826`) is not modelled: zip streaming.
- File contents are not modelled: GridFS streaming, multer temporary files and `fs.unlinkSync`.
- The model has only the file's metadata record. Attachments.UploadFile treats the record as written at once, though the source writes it in the upload stream's `finish` callback.
- MongoDB, Express and configuration setup are not modelled (`src/app.ts:1-61`, the `/api` ping at 230-232, the listener at 965-967).
- Asynchrony is not modelled. Each route's writes are applied together, so the interleavings in which the non-transactional two-record updates disagree are not modelled.
- Status 500 answers (storage errors, malformed ObjectId strings that make `new ObjectId` throw) are not modelled. Ids are plain naturals.
- A missing request body or `req.file`, which makes the source throw, is not modelled. Request fields are typed values.
- Attachments.RenameCollides: a non-string `filename` (a query-operator object) is treated as matching no name. MongoDB query-operator semantics are not modelled.
- `getUnixTime` truncation and GridFS millisecond upload dates are an integer clock parameter. The `/1000` in the file list answer is a real division.
- The GET routes are not among `Server.Request`, because none of them writes to the store. Their behaviour is stated by the `Reads` and `Attachments` members. `POST /api/login` writes nothing either, but it is a POST route and is among the requests.
- Writes.EditStorypoint, Writes.EditUser, Attachments.RenameFile, Records.PushUserId, Records.PullUserId, Records.PushStorypointId, Records.PullStorypointId, Records.PushFileId and Records.PullFileId: `updateOne` updates the first match only. The model updates every record with the id, which is the same under unique ids (`Consistency.UniqueIds`).
- Writes.DeleteStorypoint, Writes.DeleteUser and Attachments.DeleteFile: `deleteOne` removes the first match only. The model removes every record with the id, for the same reason.

## Findings

| source | as written | input that shows it | evidently intended | confidence | as-written member | corrected member |
|---|---|---|---|---|---|---|
| src/app.ts:524-564 | `verifyJWT` is called to reject logged-in callers, but for a caller without a token it has already answered 401 ('No auth token provided') before the handler goes on, so every later answer fails and the client always sees 401, while the company and its first user are still created | a registration without an `authorization` header, with a free name, a new valid address and a strong password, on an empty database: the store gains the company and the user, and the answer is 401 | registration answers 201 with the company id, user id and token (or the check's own 400/409), and the new user can then log in | not executed | Writes.RegisterCompanyAsWritten, Writes.RegistrationAnswers401WhileRegistering | Writes.RegisterCompany, Writes.RegisteredUserCanLogIn |

=== FILE: attachments.dfy ===
/** The file routes under /api/company/:company_id/storypoints/:storypoint_id/files:
    listing, upload, download, deletion and renaming. The blob itself is
    outside the model; a file is its GridFS metadata document. */
module Attachments {
  import opened Base
  import opened Records
  import opened Auth
  import opened Validation

  /** One entry of the `files` answer; `created_at` is the upload date in
      seconds. */
  datatype FileView = FileView(id: Id, filename: string, createdBy: Id, size: int, createdAt: real)

  function FileViewOf(f: FileMeta): FileView {
    FileView(f.id, f.filename, f.createdBy, f.size, f.uploadedAt as real / 1000.0)
  }

  /** `storypoints.findOne({_id: spid, company_id: cid})` */
  function Located(st: Store, spid: Id, cid: Id): (r: Option<Storypoint>)
    ensures r.Some? <==> StorypointIn(st, spid, cid)
    ensures r.Some? ==> r.value in st.storypoints && r.value.id == spid && r.value.companyId == cid
  {
    Find(st.storypoints, (sp: Storypoint) => sp.id == spid && sp.companyId == cid)
  }

  /** `files.find({_id: {$in: ids}})`, in collection order. */
  function FilesAmong(fs: seq<FileMeta>, ids: seq<Id>): (r: seq<FileView>)
    ensures |r| <= |fs|
    ensures forall v :: v in r ==> exists f :: f in fs && f.id in ids && v == FileViewOf(f)
    ensures forall f :: f in fs && f.id in ids ==> FileViewOf(f) in r
  {
    if |fs| == 0 then []
    else
      var rest := FilesAmong(fs[1..], ids);
      assert forall f :: f in fs[1..] ==> f in fs;
      assert forall f :: f in fs ==> f == fs[0] || f in fs[1..] by {
        forall f | f in fs ensures f == fs[0] || f in fs[1..] {
          var k :| 0 <= k < |fs| && fs[k] == f;
          if k > 0 { assert fs[1..][k - 1] == f; }
        }
      }
      if fs[0].id in ids then [FileViewOf(fs[0])] + rest else rest
  }

  /** GET .../files: company guards, 404 unless the storypoint belongs to
      the company, then the files its `files` list names. */
  function ListFiles(st: Store, sv: Services, header: string, cid: Id, spid: Id): (r: Reply<seq<FileView>>)
    ensures CompanyGate(st, sv, header, cid).Stop? ==> r == Refused(CompanyGate(st, sv, header, cid).status)
    ensures r.Served? <==> CompanyGate(st, sv, header, cid).Pass? && StorypointIn(st, spid, cid)
    ensures r.Refused? && CompanyGate(st, sv, header, cid).Pass? ==> r.status == StatusNotFound
    ensures r.Served? ==> r.status == StatusOk && r.next == st
    ensures r.Served? ==> forall v :: v in r.body ==>
      exists f :: f in st.files && f.id in Located(st, spid, cid).value.files && v == FileViewOf(f)
    ensures r.Served? ==> forall f :: f in st.files && f.id in Located(st, spid, cid).value.files ==> FileViewOf(f) in r.body
  {
    match CompanyGate(st, sv, header, cid)
    case Stop(s) => Refused(s)
    case Pass(_) =>
      match Located(st, spid, cid)
      case None => Refused(StatusNotFound)
      case Some(sp) => Served(StatusOk, st, FilesAmong(st.files, sp.files))
  }

  /** `files.findOne({filename: name, storypoint_id: spid})`: the upload's
      uniqueness test, which ignores the company. */
  predicate NameAtStorypoint(st: Store, name: string, spid: Id) {
    exists k :: 0 <= k < |st.files| && st.files[k].filename == name && st.files[k].storypointId == spid
  }

  /** The rename's uniqueness test, which also filters on the company. */
  predicate NameAtCompanyStorypoint(st: Store, name: string, spid: Id, cid: Id) {
    exists k :: 0 <= k < |st.files| && st.files[k].filename == name && st.files[k].storypointId == spid
                && st.files[k].companyId == cid
  }

  /** The multipart file's size and the `filename` query parameter. */
  datatype Upload = Upload(size: int, filename: Param)

  /** The id GridFS gives the next stored file. */
  function NextFileId(st: Store): (id: Id)
    ensures forall k :: 0 <= k < |st.files| ==> st.files[k].id != id
  {
    FreshId(FileIds(st.files))
  }

  /** POST .../files: file guards, 400 when the file exceeds
      `max_upload_file_size`, `checkFilename` (400), 409 when a file of that
      name is already at the storypoint; then the metadata record and the
      id pushed onto the storypoint matched by id AND company. */
  function UploadFile(st: Store, sv: Services, cfg: Config, header: string, cid: Id, spid: Id, up: Upload, now: int): (r: Reply<()>)
    ensures FileGate(st, sv, header, cid, spid).Stop? ==> r == Refused(FileGate(st, sv, header, cid, spid).status)
    ensures r.status == StatusBadRequest <==>
      FileGate(st, sv, header, cid, spid).Pass? && (up.size > cfg.maxUploadFileSize || !FilenameAccepted(cfg, up.filename))
    ensures r.status == StatusConflict <==>
      FileGate(st, sv, header, cid, spid).Pass? && up.size <= cfg.maxUploadFileSize && FilenameAccepted(cfg, up.filename)
      && NameAtStorypoint(st, up.filename.text, spid)
    ensures r.Served? <==>
      FileGate(st, sv, header, cid, spid).Pass? && up.size <= cfg.maxUploadFileSize && FilenameAccepted(cfg, up.filename)
      && !NameAtStorypoint(st, up.filename.text, spid)
    ensures r.Served? ==> r.status == StatusOk && r.next == st.(
      files := st.files + [FileMeta(NextFileId(st), up.filename.text, spid, cid,
                                    FileGate(st, sv, header, cid, spid).caller.subject, up.size, now)],
      storypoints := PushFileId(st.storypoints, spid, cid, NextFileId(st)))
  {
    match FileGate(st, sv, header, cid, spid)
    case Stop(s) => Refused(s)
    case Pass(c) =>
      if up.size > cfg.maxUploadFileSize then Refused(StatusBadRequest)
      else if !FilenameAccepted(cfg, up.filename) then Refused(StatusBadRequest)
      else if NameAtStorypoint(st, up.filename.text, spid) then Refused(StatusConflict)
      else
        var f := FileMeta(NextFileId(st), up.filename.text, spid, cid, c.subject, up.size, now);
        Served(StatusOk, st.(files := st.files + [f], storypoints := PushFileId(st.storypoints, spid, cid, f.id)), ())
  }

  /** GET .../files/:file_id: file guards, then 404 unless the file is
      recorded under this storypoint and company; the answer streams that
      file. */
  function DownloadFile(st: Store, sv: Services, header: string, cid: Id, spid: Id, fid: Id): (r: Reply<FileMeta>)
    ensures FileGate(st, sv, header, cid, spid).Stop? ==> r == Refused(FileGate(st, sv, header, cid, spid).status)
    ensures r.Served? <==> FileGate(st, sv, header, cid, spid).Pass? && FileAt(st, fid, spid, cid)
    ensures r.Refused? && FileGate(st, sv, header, cid, spid).Pass? ==> r.status == StatusNotFound
    ensures r.Served? ==> r.status == StatusOk && r.next == st
    ensures r.Served? ==> r.body in st.files && r.body.id == fid && r.body.storypointId == spid && r.body.companyId == cid
  {
    match FileGate(st, sv, header, cid, spid)
    case Stop(s) => Refused(s)
    case Pass(_) =>
      match Find(st.files, (f: FileMeta) => f.id == fid && f.storypointId == spid && f.companyId == cid)
      case None => Refused(StatusNotFound)
      case Some(f) => Served(StatusOk, st, f)
  }

  /** DELETE .../files/:file_id: file guards, 404 unless the file is recorded
      under this storypoint and company, then the record goes (by id) and the
      id is pulled from the storypoint's `files`. */
  function DeleteFile(st: Store, sv: Services, header: string, cid: Id, spid: Id, fid: Id): (r: Reply<()>)
    ensures FileGate(st, sv, header, cid, spid).Stop? ==> r == Refused(FileGate(st, sv, header, cid, spid).status)
    ensures r.Served? <==> FileGate(st, sv, header, cid, spid).Pass? && FileAt(st, fid, spid, cid)
    ensures r.Refused? && FileGate(st, sv, header, cid, spid).Pass? ==> r.status == StatusNotFound
    ensures r.Served? ==> r.status == StatusOk
    ensures r.Served? ==> !(fid in FileIds(r.next.files))
    ensures r.Served? ==> forall k :: 0 <= k < |st.files| && st.files[k].id != fid ==> st.files[k] in r.next.files
    ensures r.Served? ==> forall k :: 0 <= k < |r.next.files| ==> r.next.files[k] in st.files
    ensures r.Served? ==> r.next == st.(files := DropFile(st.files, fid), storypoints := PullFileId(st.storypoints, spid, cid, fid))
  {
    match FileGate(st, sv, header, cid, spid)
    case Stop(s) => Refused(s)
    case Pass(_) =>
      if !FileAt(st, fid, spid, cid) then Refused(StatusNotFound)
      else
        Served(StatusOk, st.(files := DropFile(st.files, fid), storypoints := PullFileId(st.storypoints, spid, cid, fid)), ())
  }

  /** The rename's collision test: only a string can equal a stored name. */
  predicate RenameCollides(st: Store, name: Param, spid: Id, cid: Id) {
    name.Text? && NameAtCompanyStorypoint(st, name.text, spid, cid)
  }

  /** PUT .../files/:file_id/rename: file guards, 409 when the storypoint
      already holds the name (checked before the name is validated), then
      `checkFilename` (400), then the file with that id is renamed, wherever
      it is recorded; an unknown id still answers 200. */
  function RenameFile(st: Store, sv: Services, cfg: Config, header: string, cid: Id, spid: Id, fid: Id, name: Param): (r: Reply<()>)
    ensures FileGate(st, sv, header, cid, spid).Stop? ==> r == Refused(FileGate(st, sv, header, cid, spid).status)
    ensures r.status == StatusConflict <==> FileGate(st, sv, header, cid, spid).Pass? && RenameCollides(st, name, spid, cid)
    ensures r.status == StatusBadRequest <==>
      FileGate(st, sv, header, cid, spid).Pass? && !RenameCollides(st, name, spid, cid) && !FilenameAccepted(cfg, name)
    ensures r.Served? <==>
      FileGate(st, sv, header, cid, spid).Pass? && !RenameCollides(st, name, spid, cid) && FilenameAccepted(cfg, name)
    ensures r.Served? ==> r.status == StatusOk
    ensures r.Served? ==> r.next.companies == st.companies && r.next.users == st.users
                          && r.next.storypoints == st.storypoints && r.next.blacklist == st.blacklist
    ensures r.Served? ==> |r.next.files| == |st.files| && forall k :: 0 <= k < |st.files| ==>
      r.next.files[k] == if st.files[k].id == fid then st.files[k].(filename := name.text) else st.files[k]
  {
    match FileGate(st, sv, header, cid, spid)
    case Stop(s) => Refused(s)
    case Pass(_) =>
      if RenameCollides(st, name, spid, cid) then Refused(StatusConflict)
      else if !FilenameAccepted(cfg, name) then Refused(StatusBadRequest)
      else
        var fs := seq(|st.files|, k requires 0 <= k < |st.files| =>
          if st.files[k].id == fid then st.files[k].(filename := name.text) else st.files[k]);
        Served(StatusOk, st.(files := fs), ())
  }

  /** The file routes test the storypoint id before membership, and in every
      company: a logged-in caller who does not belong to the path company
      reads 403 when some company has a storypoint with that id and 404 when
      none has, which the company routes never let a stranger tell apart. */
  lemma FileRoutesRevealForeignStorypoints(st: Store, sv: Services, cfg: Config, header: string, cid: Id, spid: Id, fid: Id,
                                           up: Upload, now: int, name: Param)
    requires VerifyJwt(st, sv, header).Pass? && CompanyExists(st, cid)
    requires !IsMember(st, VerifyJwt(st, sv, header).caller.subject, cid)
    ensures var expected := if StorypointExists(st, spid) then StatusForbidden else StatusNotFound;
      && DownloadFile(st, sv, header, cid, spid, fid) == Refused(expected)
      && UploadFile(st, sv, cfg, header, cid, spid, up, now) == Refused(expected)
      && DeleteFile(st, sv, header, cid, spid, fid) == Refused(expected)
      && RenameFile(st, sv, cfg, header, cid, spid, fid, name) == Refused(expected)
    ensures ListFiles(st, sv, header, cid, spid) == Refused(StatusForbidden)
  {
  }

  /** A member of one company may upload to a storypoint id of another
      company: the upload succeeds, the file is listed by no storypoint, and
      from then on nobody can upload a file of that name to that storypoint. */
  lemma ForeignUploadBlocksTheName(st: Store, sv: Services, cfg: Config, header: string, cid: Id, spid: Id, up: Upload, now: int,
                                   header2: string, cid2: Id, up2: Upload, now2: int)
    requires UploadFile(st, sv, cfg, header, cid, spid, up, now).Served?
    requires !StorypointIn(st, spid, cid)
    requires up2.filename == up.filename
    ensures UploadFile(st, sv, cfg, header, cid, spid, up, now).next.storypoints == st.storypoints
    ensures !UploadFile(UploadFile(st, sv, cfg, header, cid, spid, up, now).next, sv, cfg, header2, cid2, spid, up2, now2).Served?
  {
    var n := UploadFile(st, sv, cfg, header, cid, spid, up, now).next;
    assert forall k :: 0 <= k < |st.storypoints| ==> n.storypoints[k] == st.storypoints[k];
    assert NameAtStorypoint(n, up.filename.text, spid) by {
      assert n.files[|st.files|].filename == up.filename.text && n.files[|st.files|].storypointId == spid;
    }
  }

  /** The rename route looks the file up by id alone: under any storypoint
      the caller may use, it renames a file recorded under another
      storypoint, even another company's. */
  lemma RenameReachesAnyFile(st: Store, sv: Services, cfg: Config, header: string, cid: Id, spid: Id, k: nat, s: string)
    requires FileGate(st, sv, header, cid, spid).Pass?
    requires FilenameAccepted(cfg, Text(s)) && !NameAtCompanyStorypoint(st, s, spid, cid)
    requires k < |st.files|
    ensures var r := RenameFile(st, sv, cfg, header, cid, spid, st.files[k].id, Text(s));
      r.Served? && r.next.files[k] == st.files[k].(filename := s)
  {
  }
}

=== FILE: auth.dfy ===
/** Identity and tenancy: `verifyJWT`, `blacklistJWT`, the guard sequences
    the routes run before touching company data, and the login and logout
    routes. */
module Auth {
  import opened Base
  import opened Records

  const BearerPrefix: string := "Bearer "

  /** `"Bearer "` starts at position `k` of `h`. */
  predicate PrefixAt(h: string, k: nat) {
    k + |BearerPrefix| <= |h| && h[k..k + |BearerPrefix|] == BearerPrefix
  }

  /** `h.replace('Bearer ', "")`: a string pattern replaces only its first
      occurrence. */
  function StripBearer(h: string): (t: string)
    ensures forall k :: 0 <= k <= |h| && PrefixAt(h, k) && (forall j :: 0 <= j < k ==> !PrefixAt(h, j)) ==>
      t == h[..k] + h[k + |BearerPrefix|..]
    ensures (forall k :: 0 <= k <= |h| ==> !PrefixAt(h, k)) ==> t == h
    ensures |t| == |h| || |t| == |h| - |BearerPrefix|
    decreases |h|
  {
    if |h| < |BearerPrefix| then h
    else if h[..|BearerPrefix|] == BearerPrefix then
      assert PrefixAt(h, 0);
      h[|BearerPrefix|..]
    else
      var rest := StripBearer(h[1..]);
      ShiftedPrefix(h);
      assert [h[0]] + h[1..] == h;
      [h[0]] + rest
  }

  /** The occurrences of the prefix in `h[1..]` are those of `h`, one place
      earlier; used to carry `StripBearer`'s contract past a first character
      that does not start the prefix. */
  lemma ShiftedPrefix(h: string)
    requires |h| >= |BearerPrefix| && !PrefixAt(h, 0)
    ensures forall k :: 0 <= k <= |h[1..]| ==> (PrefixAt(h[1..], k) <==> PrefixAt(h, k + 1))
    ensures forall k :: 0 <= k <= |h| && PrefixAt(h, k) && (forall j :: 0 <= j < k ==> !PrefixAt(h, j)) ==>
      k >= 1 && PrefixAt(h[1..], k - 1) && (forall j :: 0 <= j < k - 1 ==> !PrefixAt(h[1..], j))
      && h[..k] + h[k + |BearerPrefix|..] == [h[0]] + (h[1..][..k - 1] + h[1..][k - 1 + |BearerPrefix|..])
  {
    forall k | 0 <= k <= |h[1..]| ensures PrefixAt(h[1..], k) <==> PrefixAt(h, k + 1) {
      if k + |BearerPrefix| <= |h[1..]| {
        assert h[1..][k..k + |BearerPrefix|] == h[k + 1..k + 1 + |BearerPrefix|];
      }
    }
    forall k | 0 <= k <= |h| && PrefixAt(h, k) && (forall j :: 0 <= j < k ==> !PrefixAt(h, j))
      ensures k >= 1 && PrefixAt(h[1..], k - 1) && (forall j :: 0 <= j < k - 1 ==> !PrefixAt(h[1..], j))
      ensures h[..k] + h[k + |BearerPrefix|..] == [h[0]] + (h[1..][..k - 1] + h[1..][k - 1 + |BearerPrefix|..])
    {
      assert h[1..][k - 1..k - 1 + |BearerPrefix|] == h[k..k + |BearerPrefix|];
      forall j | 0 <= j < k - 1 ensures !PrefixAt(h[1..], j) {
        assert !PrefixAt(h, j + 1);
        if j + |BearerPrefix| <= |h[1..]| {
          assert h[1..][j..j + |BearerPrefix|] == h[j + 1..j + 1 + |BearerPrefix|];
        }
      }
      assert h[..k] == [h[0]] + h[1..][..k - 1];
      assert h[k + |BearerPrefix|..] == h[1..][k - 1 + |BearerPrefix|..];
    }
  }

  /** The outcome of a guard sequence: go on as `caller`, or answer `status`. */
  datatype Gate = Pass(caller: Claim) | Stop(status: int)

  /** `verifyJWT`: a missing (or empty) header, a header whose exact string
      is blacklisted, and a token the signature check refuses all answer
      401; the blacklist is consulted before the signature. */
  function VerifyJwt(st: Store, sv: Services, header: string): (g: Gate)
    ensures g.Pass? <==> header != "" && header !in st.blacklist && sv.verifyToken(StripBearer(header)).Some?
    ensures g.Pass? ==> Some(g.caller) == sv.verifyToken(StripBearer(header))
    ensures g.Stop? ==> g.status == StatusUnauthorized
  {
    if header == "" then Stop(StatusUnauthorized)
    else if header in st.blacklist then Stop(StatusUnauthorized)
    else match sv.verifyToken(StripBearer(header))
      case None => Stop(StatusUnauthorized)
      case Some(c) => Pass(c)
  }

  predicate NoDuplicates(s: seq<string>) {
    forall i, j :: 0 <= i < j < |s| ==> s[i] != s[j]
  }

  /** `blacklistJWT`: insert the header string unless it is already there. */
  function BlacklistJwt(bl: seq<string>, token: string): (r: seq<string>)
    ensures forall t :: t in r <==> t in bl || t == token
    ensures token in bl ==> r == bl
    ensures |r| <= |bl| + 1
    ensures NoDuplicates(bl) ==> NoDuplicates(r)
  {
    if token in bl then bl else bl + [token]
  }

  /** Blacklisting twice is blacklisting once. */
  lemma BlacklistIdempotent(bl: seq<string>, token: string)
    ensures BlacklistJwt(BlacklistJwt(bl, token), token) == BlacklistJwt(bl, token)
  {
  }

  /** The guards of a company-scoped route: `verifyJWT` (401), then
      `companyExists` (404), then membership of the caller (403). */
  function CompanyGate(st: Store, sv: Services, header: string, cid: Id): (g: Gate)
    ensures g.Pass? ==> VerifyJwt(st, sv, header) == g && CompanyExists(st, cid) && IsMember(st, g.caller.subject, cid)
    ensures g == Stop(StatusUnauthorized) <==> VerifyJwt(st, sv, header).Stop?
    ensures g == Stop(StatusNotFound) <==> VerifyJwt(st, sv, header).Pass? && !CompanyExists(st, cid)
    ensures g == Stop(StatusForbidden) <==>
      VerifyJwt(st, sv, header).Pass? && CompanyExists(st, cid) && !IsMember(st, VerifyJwt(st, sv, header).caller.subject, cid)
    ensures g.Stop? ==> g.status in {StatusUnauthorized, StatusNotFound, StatusForbidden}
  {
    match VerifyJwt(st, sv, header)
    case Stop(s) => Stop(s)
    case Pass(c) =>
      if !CompanyExists(st, cid) then Stop(StatusNotFound)
      else if !IsMember(st, c.subject, cid) then Stop(StatusForbidden)
      else Pass(c)
  }

  /** The guards of the file routes: `verifyJWT` (401), `companyExists` (404),
      then `storypointExists` by id alone, in any company (404), and only
      then membership (403). */
  function FileGate(st: Store, sv: Services, header: string, cid: Id, spid: Id): (g: Gate)
    ensures g.Pass? ==>
      VerifyJwt(st, sv, header) == g && CompanyExists(st, cid) && StorypointExists(st, spid) && IsMember(st, g.caller.subject, cid)
    ensures g == Stop(StatusUnauthorized) <==> VerifyJwt(st, sv, header).Stop?
    ensures g == Stop(StatusNotFound) <==>
      VerifyJwt(st, sv, header).Pass? && (!CompanyExists(st, cid) || !StorypointExists(st, spid))
    ensures g == Stop(StatusForbidden) <==>
      VerifyJwt(st, sv, header).Pass? && CompanyExists(st, cid) && StorypointExists(st, spid)
      && !IsMember(st, VerifyJwt(st, sv, header).caller.subject, cid)
  {
    match VerifyJwt(st, sv, header)
    case Stop(s) => Stop(s)
    case Pass(c) =>
      if !CompanyExists(st, cid) then Stop(StatusNotFound)
      else if !StorypointExists(st, spid) then Stop(StatusNotFound)
      else if !IsMember(st, c.subject, cid) then Stop(StatusForbidden)
      else Pass(c)
  }

  /** `users.findOne({email})` */
  function UserByEmail(st: Store, email: string): (r: Option<User>)
    ensures r.Some? <==> EmailInUse(st, email)
    ensures r.Some? ==> r.value in st.users && r.value.email == email
  {
    Find(st.users, (u: User) => u.email == email)
  }

  /** POST /api/login: the first user with that e-mail (404 if none), the
      password compared against the stored digest (401), then a token signed
      over `{_id, email}`. */
  function Login(st: Store, sv: Services, email: string, password: string): (r: Reply<string>)
    ensures r.status == StatusNotFound <==> !EmailInUse(st, email)
    ensures r.status == StatusUnauthorized <==>
      EmailInUse(st, email) && !sv.passwordMatches(password, UserByEmail(st, email).value.password)
    ensures r.Served? ==> r.status == StatusOk && r.next == st
    ensures r.Served? ==> r.body == sv.signToken(Claim(UserByEmail(st, email).value.id, email))
    ensures r.Served? ==> (exists i :: 0 <= i < |st.users| && st.users[i].email == email
                             && sv.passwordMatches(password, st.users[i].password)
                             && r.body == sv.signToken(Claim(st.users[i].id, st.users[i].email)))
    ensures r.Refused? ==> r.status in {StatusNotFound, StatusUnauthorized}
  {
    match UserByEmail(st, email)
    case None => Refused(StatusNotFound)
    case Some(u) =>
      if !sv.passwordMatches(password, u.password) then Refused(StatusUnauthorized)
      else Served(StatusOk, st, sv.signToken(Claim(u.id, u.email)))
  }

  /** POST /api/logout: `verifyJWT`, then the header string joins the
      blacklist. */
  function Logout(st: Store, sv: Services, header: string): (r: Reply<()>)
    ensures r.Refused? <==> VerifyJwt(st, sv, header).Stop?
    ensures r.Refused? ==> r.status == StatusUnauthorized
    ensures r.Served? ==> r.status == StatusOk && r.next == st.(blacklist := BlacklistJwt(st.blacklist, header))
  {
    match VerifyJwt(st, sv, header)
    case Stop(s) => Refused(s)
    case Pass(_) => Served(StatusOk, st.(blacklist := BlacklistJwt(st.blacklist, header)), ())
  }

  /** After a logout the header it carried is refused. */
  lemma LogoutRevokesHeader(st: Store, sv: Services, header: string)
    ensures VerifyJwt(Logout(st, sv, header).After(st), sv, header) == Stop(StatusUnauthorized)
  {
  }

  /** Logout touches no other header: the blacklist is matched by exact
      string, not by the user the token names. */
  lemma LogoutSparesOtherHeaders(st: Store, sv: Services, header: string, other: string)
    requires other != header
    ensures VerifyJwt(Logout(st, sv, header).After(st), sv, other) == VerifyJwt(st, sv, other)
  {
  }

  /** The token itself is not revoked, only the header string: a token logged
      out as `"Bearer " + t` is still accepted when sent bare as `t`. */
  lemma RevocationIsPerHeaderString(st: Store, sv: Services, t: string)
    requires t != "" && forall k :: 0 <= k <= |t| ==> !PrefixAt(t, k)
    requires sv.verifyToken(t).Some?
    requires t !in st.blacklist && BearerPrefix + t !in st.blacklist
    ensures Logout(st, sv, BearerPrefix + t).Served?
    ensures VerifyJwt(Logout(st, sv, BearerPrefix + t).After(st), sv, BearerPrefix + t).Stop?
    ensures VerifyJwt(Logout(st, sv, BearerPrefix + t).After(st), sv, t) == Pass(sv.verifyToken(t).value)
  {
    var h := BearerPrefix + t;
    assert PrefixAt(h, 0) by { assert h[..|BearerPrefix|] == BearerPrefix; }
    assert h[|BearerPrefix|..] == t;
    assert h != "";
  }
}

=== FILE: base.dfy ===
/** Shared vocabulary of the GeoBase model: optional values, request
    parameters as the handlers see them, document ids, status codes and the
    generic document-collection queries (findOne, find, $pull). */
module Base {

  datatype Option<T> = None | Some(value: T)

  /** A MongoDB ObjectId; only equality and freshness matter. */
  type Id = nat

  /** A query-string or JSON-body value: missing, a string, or anything else
      (an array, an object, a number). */
  datatype Param = Absent | Text(text: string) | Structured

  /** JavaScript truthiness of a request parameter: the empty string and a
      missing value are falsy, arrays and objects are truthy. */
  predicate Truthy(p: Param) {
    p.Structured? || (p.Text? && p.text != "")
  }

  /** JavaScript truthiness of an optional string body field. */
  predicate Given(o: Option<string>) {
    o.Some? && o.value != ""
  }

  const StatusOk: int := 200
  const StatusCreated: int := 201
  const StatusBadRequest: int := 400
  const StatusUnauthorized: int := 401
  const StatusForbidden: int := 403
  const StatusNotFound: int := 404
  const StatusConflict: int := 409

  /** An id above every id in `ids`: stands for the ObjectId the database
      assigns on insert. */
  function FreshId(ids: seq<Id>): (r: Id)
    ensures forall i :: 0 <= i < |ids| ==> ids[i] < r
  {
    if |ids| == 0 then 0
    else
      var rest := FreshId(ids[1..]);
      if ids[0] < rest then rest else ids[0] + 1
  }

  /** `findOne(filter)`: the first document the filter accepts. */
  function Find<T>(s: seq<T>, p: T -> bool): (r: Option<T>)
    ensures r.Some? <==> exists i :: 0 <= i < |s| && p(s[i])
    ensures r.Some? ==> r.value in s && p(r.value)
  {
    if |s| == 0 then None
    else if p(s[0]) then Some(s[0])
    else
      var r := Find(s[1..], p);
      assert r.Some? ==> r.value in s;
      assert (exists i :: 0 <= i < |s| && p(s[i])) ==> exists i :: 0 <= i < |s[1..]| && p(s[1..][i]) by {
        if exists i :: 0 <= i < |s| && p(s[i]) {
          var i :| 0 <= i < |s| && p(s[i]);
          assert i > 0 && s[1..][i - 1] == s[i];
        }
      }
      r
  }

  /** `find(filter).toArray()`: every accepted document, in collection order.
      Also `$pull` on a list of ids and `deleteOne`/`deleteMany` on a
      collection, with the filter negated. */
  function Filter<T>(s: seq<T>, p: T -> bool): (r: seq<T>)
    ensures |r| <= |s|
    ensures forall i :: 0 <= i < |r| ==> r[i] in s && p(r[i])
    ensures forall i :: 0 <= i < |s| && p(s[i]) ==> s[i] in r
  {
    if |s| == 0 then []
    else
      var rest := Filter(s[1..], p);
      assert forall i :: 1 <= i < |s| ==> s[i] == s[1..][i - 1];
      if p(s[0]) then [s[0]] + rest else rest
  }

  /** `find` keeps collection order: filtering a concatenation filters each
      part and keeps the first part's survivors ahead of the second's. */
  lemma {:induction false} FilterAppend<T>(a: seq<T>, b: seq<T>, p: T -> bool)
    ensures Filter(a + b, p) == Filter(a, p) + Filter(b, p)
  {
    if |a| > 0 {
      assert (a + b)[1..] == a[1..] + b;
      FilterAppend(a[1..], b, p);
    } else {
      assert a + b == b;
    }
  }

  /** The key of every record of a collection, in collection order. */
  function Ids<T>(s: seq<T>, key: T -> Id): (r: seq<Id>)
    ensures |r| == |s| && forall i :: 0 <= i < |s| ==> r[i] == key(s[i])
  {
    seq(|s|, i requires 0 <= i < |s| => key(s[i]))
  }

  /** Mongo's `$pull: {list: x}`: every occurrence of `x` leaves the list. */
  function Pull(s: seq<Id>, x: Id): (r: seq<Id>)
    ensures forall y :: y in r <==> y in s && y != x
  {
    var r := Filter(s, (y: Id) => y != x);
    assert forall y :: y in r ==> y in s && y != x by {
      forall y | y in r ensures y in s && y != x {
        var i :| 0 <= i < |r| && r[i] == y;
      }
    }
    assert forall y :: y in s && y != x ==> y in r by {
      forall y | y in s && y != x ensures y in r {
        var i :| 0 <= i < |s| && s[i] == y;
      }
    }
    r
  }

  lemma {:induction false} FilterKeepsAll<T>(s: seq<T>, p: T -> bool)
    requires forall i :: 0 <= i < |s| ==> p(s[i])
    ensures Filter(s, p) == s
  {
    if |s| > 0 {
      FilterKeepsAll(s[1..], p);
      assert [s[0]] + s[1..] == s;
    }
  }

  /** The filter keeps the documents it accepts in their order, so a field
      that told the documents apart still tells the survivors apart. */
  lemma {:induction false} FilterKeepsDistinct<T, K>(s: seq<T>, p: T -> bool, key: T -> K)
    requires forall i, j :: 0 <= i < j < |s| ==> key(s[i]) != key(s[j])
    ensures forall i, j :: 0 <= i < j < |Filter(s, p)| ==> key(Filter(s, p)[i]) != key(Filter(s, p)[j])
  {
    if |s| > 0 {
      var rest := Filter(s[1..], p);
      FilterKeepsDistinct(s[1..], p, key);
      if p(s[0]) {
        forall j | 0 <= j < |rest| ensures key(s[0]) != key(rest[j]) {
          var k :| 0 <= k < |s[1..]| && s[1..][k] == rest[j];
          assert s[k + 1] == rest[j];
        }
      }
    }
  }

  /** Pulling an id that is not in the list leaves the list exactly as it was. */
  lemma PullAbsentIsIdentity(s: seq<Id>, x: Id)
    requires x !in s
    ensures Pull(s, x) == s
  {
    FilterKeepsAll(s, (y: Id) => y != x);
  }
}

=== FILE: consistency.dfy ===
/** The store invariants the write routes keep: ids are unique, the id lists
    on companies and storypoints point at records that really belong there,
    every user and storypoint is listed by its company, and e-mail addresses
    are unique. Each route lemma takes one request from a consistent store to
    a consistent store. */
module Consistency {
  import opened Base
  import opened Records
  import opened Auth
  import opened Writes
  import opened Attachments
  import opened Validation

  // ---- the invariant ----

  predicate CompanyIdsUnique(cs: seq<Company>) {
    forall i, j :: 0 <= i < j < |cs| ==> cs[i].id != cs[j].id
  }
  predicate UserIdsUnique(us: seq<User>) {
    forall i, j :: 0 <= i < j < |us| ==> us[i].id != us[j].id
  }
  predicate StorypointIdsUnique(sps: seq<Storypoint>) {
    forall i, j :: 0 <= i < j < |sps| ==> sps[i].id != sps[j].id
  }
  predicate FileIdsUnique(fs: seq<FileMeta>) {
    forall i, j :: 0 <= i < j < |fs| ==> fs[i].id != fs[j].id
  }

  predicate UniqueIds(st: Store) {
    CompanyIdsUnique(st.companies) && UserIdsUnique(st.users) && StorypointIdsUnique(st.storypoints) && FileIdsUnique(st.files)
  }

  /** Every id in a company's `user_ids` names a user of that company. */
  predicate MembersIndexed(st: Store) {
    forall i, x :: 0 <= i < |st.companies| && x in st.companies[i].userIds ==> IsMember(st, x, st.companies[i].id)
  }

  /** `u` appears in the `user_ids` of its company. */
  predicate UserListed(cs: seq<Company>, u: User) {
    exists i :: 0 <= i < |cs| && cs[i].id == u.companyId && u.id in cs[i].userIds
  }

  /** Every user is listed in its company's `user_ids`. */
  predicate MembersListed(st: Store) {
    forall k :: 0 <= k < |st.users| ==> UserListed(st.companies, st.users[k])
  }

  /** Every id in a company's `storypoint_ids` names a storypoint of that
      company. */
  predicate StorypointsIndexed(st: Store) {
    forall i, x :: 0 <= i < |st.companies| && x in st.companies[i].storypointIds ==> StorypointIn(st, x, st.companies[i].id)
  }

  /** `sp` appears in the `storypoint_ids` of its company. */
  predicate StorypointListed(cs: seq<Company>, sp: Storypoint) {
    exists i :: 0 <= i < |cs| && cs[i].id == sp.companyId && sp.id in cs[i].storypointIds
  }

  /** Every storypoint is listed in its company's `storypoint_ids`. */
  predicate StorypointsListed(st: Store) {
    forall k :: 0 <= k < |st.storypoints| ==> StorypointListed(st.companies, st.storypoints[k])
  }

  /** Every id in a storypoint's `files` names a file recorded under that
      storypoint and its company. */
  predicate FilesIndexed(st: Store) {
    forall i, x :: 0 <= i < |st.storypoints| && x in st.storypoints[i].files ==>
      FileAt(st, x, st.storypoints[i].id, st.storypoints[i].companyId)
  }

  predicate EmailsUnique(us: seq<User>) {
    forall i, j :: 0 <= i < j < |us| ==> us[i].email != us[j].email
  }

  predicate Consistent(st: Store) {
    && UniqueIds(st)
    && MembersIndexed(st) && MembersListed(st)
    && StorypointsIndexed(st) && StorypointsListed(st)
    && FilesIndexed(st)
    && EmailsUnique(st.users)
  }

  /** The empty database is consistent. */
  lemma EmptyIsConsistent()
    ensures Consistent(Store([], [], [], [], []))
  {
  }

  // ---- frames: what each part of the invariant reads ----

  predicate SameRosters(a: seq<Company>, b: seq<Company>) {
    |a| == |b| && forall i :: 0 <= i < |a| ==> a[i].id == b[i].id && a[i].userIds == b[i].userIds
  }
  predicate SameListings(a: seq<Company>, b: seq<Company>) {
    |a| == |b| && forall i :: 0 <= i < |a| ==> a[i].id == b[i].id && a[i].storypointIds == b[i].storypointIds
  }
  predicate SameUserKeys(a: seq<User>, b: seq<User>) {
    |a| == |b| && forall k :: 0 <= k < |a| ==> a[k].id == b[k].id && a[k].companyId == b[k].companyId
  }
  predicate SameOwners(a: seq<Storypoint>, b: seq<Storypoint>) {
    |a| == |b| && forall k :: 0 <= k < |a| ==> a[k].id == b[k].id && a[k].companyId == b[k].companyId
  }
  predicate SameStorypointKeys(a: seq<Storypoint>, b: seq<Storypoint>) {
    SameOwners(a, b) && forall k :: 0 <= k < |a| ==> a[k].files == b[k].files
  }
  predicate SameFileKeys(a: seq<FileMeta>, b: seq<FileMeta>) {
    |a| == |b| && forall k :: 0 <= k < |a| ==>
      a[k].id == b[k].id && a[k].storypointId == b[k].storypointId && a[k].companyId == b[k].companyId
  }

  lemma MembersFrame(a: Store, b: Store)
    requires MembersIndexed(a) && MembersListed(a)
    requires SameRosters(a.companies, b.companies) && SameUserKeys(a.users, b.users)
    ensures MembersIndexed(b) && MembersListed(b)
  {
    forall i, x | 0 <= i < |b.companies| && x in b.companies[i].userIds ensures IsMember(b, x, b.companies[i].id) {
      assert x in a.companies[i].userIds;
      var k :| 0 <= k < |a.users| && a.users[k].id == x && a.users[k].companyId == a.companies[i].id;
      assert b.users[k].id == x;
    }
    forall k | 0 <= k < |b.users| ensures UserListed(b.companies, b.users[k]) {
      var i :| 0 <= i < |a.companies| && a.companies[i].id == a.users[k].companyId && a.users[k].id in a.companies[i].userIds;
      assert b.companies[i].id == b.users[k].companyId;
      assert b.users[k].id == a.users[k].id && b.companies[i].userIds == a.companies[i].userIds;
    }
  }

  lemma StorypointsFrame(a: Store, b: Store)
    requires StorypointsIndexed(a) && StorypointsListed(a)
    requires SameListings(a.companies, b.companies) && SameOwners(a.storypoints, b.storypoints)
    ensures StorypointsIndexed(b) && StorypointsListed(b)
  {
    forall i, x | 0 <= i < |b.companies| && x in b.companies[i].storypointIds ensures StorypointIn(b, x, b.companies[i].id) {
      assert x in a.companies[i].storypointIds;
      var k :| 0 <= k < |a.storypoints| && a.storypoints[k].id == x && a.storypoints[k].companyId == a.companies[i].id;
      assert b.storypoints[k].id == x;
    }
    forall k | 0 <= k < |b.storypoints| ensures StorypointListed(b.companies, b.storypoints[k]) {
      var i :| 0 <= i < |a.companies| && a.companies[i].id == a.storypoints[k].companyId
               && a.storypoints[k].id in a.companies[i].storypointIds;
      assert b.companies[i].id == b.storypoints[k].companyId;
      assert b.storypoints[k].id == a.storypoints[k].id && b.companies[i].storypointIds == a.companies[i].storypointIds;
    }
  }

  lemma FilesFrame(a: Store, b: Store)
    requires FilesIndexed(a)
    requires SameStorypointKeys(a.storypoints, b.storypoints) && SameFileKeys(a.files, b.files)
    ensures FilesIndexed(b)
  {
    forall i, x | 0 <= i < |b.storypoints| && x in b.storypoints[i].files
      ensures FileAt(b, x, b.storypoints[i].id, b.storypoints[i].companyId)
    {
      assert x in a.storypoints[i].files;
      var k :| 0 <= k < |a.files| && a.files[k].id == x && a.files[k].storypointId == a.storypoints[i].id
               && a.files[k].companyId == a.storypoints[i].companyId;
      assert b.files[k].id == x;
    }
  }

  /** A store that agrees with a consistent one on every key the invariant
      reads, and on the e-mail addresses, is consistent. */
  lemma KeysFrame(a: Store, b: Store)
    requires Consistent(a)
    requires SameRosters(a.companies, b.companies) && SameListings(a.companies, b.companies)
    requires SameUserKeys(a.users, b.users) && SameStorypointKeys(a.storypoints, b.storypoints)
    requires SameFileKeys(a.files, b.files)
    requires EmailsUnique(b.users)
    ensures Consistent(b)
  {
    MembersFrame(a, b);
    StorypointsFrame(a, b);
    FilesFrame(a, b);
  }

  // ---- adding a record ----

  /** Appending a storypoint whose id is fresh and whose company exists, and
      pushing its id onto that company's `storypoint_ids`. */
  lemma StorypointAppended(st: Store, n: Store, sp: Storypoint)
    requires Consistent(st)
    requires CompanyExists(st, sp.companyId) && !StorypointExists(st, sp.id) && sp.files == []
    requires n == st.(storypoints := st.storypoints + [sp], companies := PushStorypointId(st.companies, sp.companyId, sp.id))
    ensures Consistent(n)
  {
    MembersFrame(st, n);
    AppendedStorypointIndexed(st, n, sp);
    AppendedStorypointListed(st, n, sp);
    forall i, x | 0 <= i < |n.storypoints| && x in n.storypoints[i].files
      ensures FileAt(n, x, n.storypoints[i].id, n.storypoints[i].companyId)
    {
      assert i < |st.storypoints| && n.storypoints[i] == st.storypoints[i];
    }
    assert StorypointIdsUnique(n.storypoints) by {
      forall i, j | 0 <= i < j < |n.storypoints| ensures n.storypoints[i].id != n.storypoints[j].id {
        assert n.storypoints[i] == st.storypoints[i];
        if j < |st.storypoints| {
          assert n.storypoints[j] == st.storypoints[j];
        }
      }
    }
  }

  lemma AppendedStorypointIndexed(st: Store, n: Store, sp: Storypoint)
    requires StorypointsIndexed(st)
    requires n.storypoints == st.storypoints + [sp] && n.companies == PushStorypointId(st.companies, sp.companyId, sp.id)
    ensures StorypointsIndexed(n)
  {
    forall i, x | 0 <= i < |n.companies| && x in n.companies[i].storypointIds ensures StorypointIn(n, x, n.companies[i].id) {
      if x == sp.id && n.companies[i].id == sp.companyId {
        assert n.storypoints[|st.storypoints|] == sp;
      } else {
        assert x in st.companies[i].storypointIds;
        var k :| 0 <= k < |st.storypoints| && st.storypoints[k].id == x && st.storypoints[k].companyId == st.companies[i].id;
        assert n.storypoints[k] == st.storypoints[k];
      }
    }
  }

  lemma AppendedStorypointListed(st: Store, n: Store, sp: Storypoint)
    requires StorypointsListed(st) && CompanyExists(st, sp.companyId)
    requires n.storypoints == st.storypoints + [sp] && n.companies == PushStorypointId(st.companies, sp.companyId, sp.id)
    ensures StorypointsListed(n)
  {
    forall k | 0 <= k < |n.storypoints| ensures StorypointListed(n.companies, n.storypoints[k]) {
      if k == |st.storypoints| {
        var i :| 0 <= i < |st.companies| && st.companies[i].id == sp.companyId;
        assert sp.id in n.companies[i].storypointIds;
      } else {
        assert n.storypoints[k] == st.storypoints[k];
        assert StorypointListed(st.companies, st.storypoints[k]);
        var i :| 0 <= i < |st.companies| && st.companies[i].id == st.storypoints[k].companyId
                 && st.storypoints[k].id in st.companies[i].storypointIds;
        assert st.storypoints[k].id in n.companies[i].storypointIds;
      }
    }
  }

  lemma AddStorypointKeepsConsistent(st: Store, sv: Services, header: string, cid: Id, req: NewStorypoint, now: int)
    requires Consistent(st)
    ensures Consistent(AddStorypoint(st, sv, header, cid, req, now).After(st))
  {
    var r := AddStorypoint(st, sv, header, cid, req, now);
    if r.Served? {
      StorypointAppended(st, r.next, CreatedStorypoint(sv, r.body, cid, CompanyGate(st, sv, header, cid).caller.subject, req, now));
    }
  }

  lemma UserAppended(st: Store, n: Store, u: User)
    requires Consistent(st)
    requires CompanyExists(st, u.companyId) && !(u.id in UserIds(st.users)) && !EmailInUse(st, u.email)
    requires n == st.(users := st.users + [u], companies := PushUserId(st.companies, u.companyId, u.id))
    ensures Consistent(n)
  {
    AppendedUserIndexed(st, n, u);
    AppendedUserListed(st, n, u);
    StorypointsFrame(st, n);
    assert UserIdsUnique(n.users) && EmailsUnique(n.users) by {
      forall i, j | 0 <= i < j < |n.users| ensures n.users[i].id != n.users[j].id && n.users[i].email != n.users[j].email {
        assert n.users[i] == st.users[i];
        assert UserIds(st.users)[i] == st.users[i].id;
        if j < |st.users| {
          assert n.users[j] == st.users[j];
        }
      }
    }
  }

  lemma AppendedUserIndexed(st: Store, n: Store, u: User)
    requires MembersIndexed(st)
    requires n.users == st.users + [u] && n.companies == PushUserId(st.companies, u.companyId, u.id)
    ensures MembersIndexed(n)
  {
    forall i, x | 0 <= i < |n.companies| && x in n.companies[i].userIds ensures IsMember(n, x, n.companies[i].id) {
      if x == u.id && n.companies[i].id == u.companyId {
        assert n.users[|st.users|] == u;
      } else {
        assert x in st.companies[i].userIds;
        var k :| 0 <= k < |st.users| && st.users[k].id == x && st.users[k].companyId == st.companies[i].id;
        assert n.users[k] == st.users[k];
      }
    }
  }

  lemma AppendedUserListed(st: Store, n: Store, u: User)
    requires MembersListed(st) && CompanyExists(st, u.companyId)
    requires n.users == st.users + [u] && n.companies == PushUserId(st.companies, u.companyId, u.id)
    ensures MembersListed(n)
  {
    forall k | 0 <= k < |n.users| ensures UserListed(n.companies, n.users[k]) {
      if k == |st.users| {
        var i :| 0 <= i < |st.companies| && st.companies[i].id == u.companyId;
        assert u.id in n.companies[i].userIds;
      } else {
        assert n.users[k] == st.users[k];
        assert UserListed(st.companies, st.users[k]);
        var i :| 0 <= i < |st.companies| && st.companies[i].id == st.users[k].companyId && st.users[k].id in st.companies[i].userIds;
        assert st.users[k].id in n.companies[i].userIds;
      }
    }
  }

  lemma AddUserKeepsConsistent(st: Store, sv: Services, cfg: Config, header: string, cid: Id, req: NewUser, now: int)
    requires Consistent(st)
    ensures Consistent(AddUser(st, sv, cfg, header, cid, req, now).After(st))
  {
    var r := AddUser(st, sv, cfg, header, cid, req, now);
    if r.Served? {
      UserAppended(st, r.next, User(r.body, req.fullname, req.email, sv.hashPassword(req.password), now, cid));
    }
  }

  /** A company and its first user, both with fresh ids, the user listed by
      the company. */
  lemma CompanyAppended(st: Store, n: Store, c: Company, u: User)
    requires Consistent(st)
    requires !CompanyExists(st, c.id) && !(u.id in UserIds(st.users)) && !EmailInUse(st, u.email)
    requires u.companyId == c.id && c.userIds == [u.id] && c.storypointIds == []
    requires n == st.(companies := st.companies + [c], users := st.users + [u])
    ensures Consistent(n)
  {
    forall i, x | 0 <= i < |n.companies| && x in n.companies[i].userIds ensures IsMember(n, x, n.companies[i].id) {
      if i == |st.companies| {
        assert n.users[|st.users|] == u;
      } else {
        assert n.companies[i] == st.companies[i];
        var k :| 0 <= k < |st.users| && st.users[k].id == x && st.users[k].companyId == st.companies[i].id;
        assert n.users[k] == st.users[k];
      }
    }
    forall k | 0 <= k < |n.users| ensures UserListed(n.companies, n.users[k]) {
      if k == |st.users| {
        assert n.companies[|st.companies|] == c;
      } else {
        assert n.users[k] == st.users[k] && UserListed(st.companies, st.users[k]);
        var i :| 0 <= i < |st.companies| && st.companies[i].id == st.users[k].companyId && st.users[k].id in st.companies[i].userIds;
        assert n.companies[i] == st.companies[i];
      }
    }
    forall i, x | 0 <= i < |n.companies| && x in n.companies[i].storypointIds ensures StorypointIn(n, x, n.companies[i].id) {
      assert i < |st.companies| && n.companies[i] == st.companies[i];
    }
    forall k | 0 <= k < |n.storypoints| ensures StorypointListed(n.companies, n.storypoints[k]) {
      assert StorypointListed(st.companies, st.storypoints[k]);
      var i :| 0 <= i < |st.companies| && st.companies[i].id == st.storypoints[k].companyId
               && st.storypoints[k].id in st.companies[i].storypointIds;
      assert n.companies[i] == st.companies[i];
    }
    assert CompanyIdsUnique(n.companies) by {
      forall i, j | 0 <= i < j < |n.companies| ensures n.companies[i].id != n.companies[j].id {
        assert n.companies[i] == st.companies[i];
        if j < |st.companies| {
          assert n.companies[j] == st.companies[j];
        }
      }
    }
    assert UserIdsUnique(n.users) && EmailsUnique(n.users) by {
      forall i, j | 0 <= i < j < |n.users| ensures n.users[i].id != n.users[j].id && n.users[i].email != n.users[j].email {
        assert n.users[i] == st.users[i];
        assert UserIds(st.users)[i] == st.users[i].id;
        if j < |st.users| {
          assert n.users[j] == st.users[j];
        }
      }
    }
  }

  lemma RegisterCompanyKeepsConsistent(st: Store, sv: Services, cfg: Config, header: string, req: Registration, now: int)
    requires Consistent(st)
    ensures Consistent(RegisterCompany(st, sv, cfg, header, req, now).After(st))
  {
    var r := RegisterCompany(st, sv, cfg, header, req, now);
    if r.Served? {
      var cid, uid := r.body.companyId, r.body.userId;
      CompanyAppended(st, r.next,
        Company(cid, req.name, if Given(req.description) then req.description.value else "", now, [uid], []),
        User(uid, req.fullname, req.email, sv.hashPassword(req.password), now, cid));
    }
  }

  lemma EditStorypointKeepsConsistent(st: Store, sv: Services, header: string, cid: Id, spid: Id, p: StorypointPatch)
    requires Consistent(st)
    ensures Consistent(EditStorypoint(st, sv, header, cid, spid, p).After(st))
  {
    var r := EditStorypoint(st, sv, header, cid, spid, p);
    if r.Served? {
      KeysFrame(st, r.next);
    }
  }

  lemma EditUserKeepsConsistent(st: Store, sv: Services, cfg: Config, header: string, cid: Id, uid: Id, p: UserPatch)
    requires Consistent(st)
    ensures Consistent(EditUser(st, sv, cfg, header, cid, uid, p).After(st))
  {
    var r := EditUser(st, sv, cfg, header, cid, uid, p);
    if r.Served? {
      var n := r.next;
      forall i, j | 0 <= i < j < |n.users| ensures n.users[i].email != n.users[j].email {
        if Given(p.email) {
          assert !EmailInUse(st, p.email.value);
          assert st.users[i].id != uid || st.users[j].id != uid;
        }
      }
      KeysFrame(st, n);
    }
  }

  lemma RenameFileKeepsConsistent(st: Store, sv: Services, cfg: Config, header: string, cid: Id, spid: Id, fid: Id, name: Param)
    requires Consistent(st)
    ensures Consistent(RenameFile(st, sv, cfg, header, cid, spid, fid, name).After(st))
  {
    var r := RenameFile(st, sv, cfg, header, cid, spid, fid, name);
    if r.Served? {
      KeysFrame(st, r.next);
    }
  }

  lemma LogoutKeepsConsistent(st: Store, sv: Services, header: string)
    requires Consistent(st)
    ensures Consistent(Logout(st, sv, header).After(st))
  {
  }

  // ---- removing a record ----

  lemma UniqueUserIds(us: seq<User>, k: nat, m: nat)
    requires UserIdsUnique(us) && k < |us| && m < |us| && k != m
    ensures us[k].id != us[m].id
  {
    if m < k {
      assert us[m].id != us[k].id;
    }
  }

  lemma UniqueFileIds(fs: seq<FileMeta>, k: nat, m: nat)
    requires FileIdsUnique(fs) && k < |fs| && m < |fs| && k != m
    ensures fs[k].id != fs[m].id
  {
    if m < k {
      assert fs[m].id != fs[k].id;
    }
  }

  /** Under unique ids, a file id names one position. */
  lemma FileById(fs: seq<FileMeta>, k: nat, m: nat)
    requires FileIdsUnique(fs) && k < |fs| && m < |fs| && fs[k].id == fs[m].id
    ensures k == m
  {
  }

  lemma UniqueStorypointIds(sps: seq<Storypoint>, k: nat, m: nat)
    requires StorypointIdsUnique(sps) && k < |sps| && m < |sps| && k != m
    ensures sps[k].id != sps[m].id
  {
    if m < k {
      assert sps[m].id != sps[k].id;
    }
  }

  /** Dropping a storypoint of company `cid` and pulling its id from the
      company's `storypoint_ids`; no other company can list it. */
  lemma StorypointDropped(st: Store, n: Store, spid: Id, cid: Id)
    requires Consistent(st) && StorypointIn(st, spid, cid)
    requires n == st.(storypoints := DropStorypoint(st.storypoints, spid), companies := PullStorypointId(st.companies, cid, spid))
    ensures Consistent(n)
  {
    MembersFrame(st, n);
    DroppedStorypointIndexed(st, n, spid, cid);
    DroppedStorypointListed(st, n, spid, cid);
    forall i, x | 0 <= i < |n.storypoints| && x in n.storypoints[i].files
      ensures FileAt(n, x, n.storypoints[i].id, n.storypoints[i].companyId)
    {
      var m :| 0 <= m < |st.storypoints| && st.storypoints[m] == n.storypoints[i];
    }
  }

  lemma DroppedStorypointIndexed(st: Store, n: Store, spid: Id, cid: Id)
    requires StorypointsIndexed(st) && StorypointIdsUnique(st.storypoints) && StorypointIn(st, spid, cid)
    requires n.storypoints == DropStorypoint(st.storypoints, spid) && n.companies == PullStorypointId(st.companies, cid, spid)
    ensures StorypointsIndexed(n)
  {
    forall i, x | 0 <= i < |n.companies| && x in n.companies[i].storypointIds ensures StorypointIn(n, x, n.companies[i].id) {
      assert x in st.companies[i].storypointIds;
      var k :| 0 <= k < |st.storypoints| && st.storypoints[k].id == x && st.storypoints[k].companyId == st.companies[i].id;
      if st.companies[i].id != cid {
        var m :| 0 <= m < |st.storypoints| && st.storypoints[m].id == spid && st.storypoints[m].companyId == cid;
        UniqueStorypointIds(st.storypoints, k, m);
      }
      assert x != spid;
      var m :| 0 <= m < |n.storypoints| && n.storypoints[m] == st.storypoints[k];
    }
  }

  lemma DroppedStorypointListed(st: Store, n: Store, spid: Id, cid: Id)
    requires StorypointsListed(st)
    requires n.storypoints == DropStorypoint(st.storypoints, spid) && n.companies == PullStorypointId(st.companies, cid, spid)
    ensures StorypointsListed(n)
  {
    forall k | 0 <= k < |n.storypoints| ensures StorypointListed(n.companies, n.storypoints[k]) {
      var m :| 0 <= m < |st.storypoints| && st.storypoints[m] == n.storypoints[k];
      assert StorypointListed(st.companies, st.storypoints[m]);
      var i :| 0 <= i < |st.companies| && st.companies[i].id == st.storypoints[m].companyId
               && st.storypoints[m].id in st.companies[i].storypointIds;
      assert n.storypoints[k].id in n.companies[i].storypointIds;
    }
  }

  lemma DeleteStorypointKeepsConsistent(st: Store, sv: Services, header: string, cid: Id, spid: Id)
    requires Consistent(st)
    ensures Consistent(DeleteStorypoint(st, sv, header, cid, spid).After(st))
  {
    var r := DeleteStorypoint(st, sv, header, cid, spid);
    if r.Served? {
      StorypointDropped(st, r.next, spid, cid);
    }
  }

  /** Dropping a user of company `cid` and pulling its id from the company's
      `user_ids`; no other company can list it. */
  lemma UserDropped(st: Store, n: Store, uid: Id, cid: Id)
    requires Consistent(st) && IsMember(st, uid, cid)
    requires n == st.(users := DropUser(st.users, uid), companies := PullUserId(st.companies, cid, uid))
    ensures Consistent(n)
  {
    StorypointsFrame(st, n);
    DroppedUserIndexed(st, n, uid, cid);
    DroppedUserListed(st, n, uid, cid);
  }

  lemma DroppedUserIndexed(st: Store, n: Store, uid: Id, cid: Id)
    requires MembersIndexed(st) && UserIdsUnique(st.users) && IsMember(st, uid, cid)
    requires n.users == DropUser(st.users, uid) && n.companies == PullUserId(st.companies, cid, uid)
    ensures MembersIndexed(n)
  {
    forall i, x | 0 <= i < |n.companies| && x in n.companies[i].userIds ensures IsMember(n, x, n.companies[i].id) {
      assert x in st.companies[i].userIds;
      var k :| 0 <= k < |st.users| && st.users[k].id == x && st.users[k].companyId == st.companies[i].id;
      if st.companies[i].id != cid {
        var m :| 0 <= m < |st.users| && st.users[m].id == uid && st.users[m].companyId == cid;
        UniqueUserIds(st.users, k, m);
      }
      assert x != uid;
      var m :| 0 <= m < |n.users| && n.users[m] == st.users[k];
    }
  }

  lemma DroppedUserListed(st: Store, n: Store, uid: Id, cid: Id)
    requires MembersListed(st)
    requires n.users == DropUser(st.users, uid) && n.companies == PullUserId(st.companies, cid, uid)
    ensures MembersListed(n)
  {
    forall k | 0 <= k < |n.users| ensures UserListed(n.companies, n.users[k]) {
      var m :| 0 <= m < |st.users| && st.users[m] == n.users[k];
      assert UserListed(st.companies, st.users[m]);
      var i :| 0 <= i < |st.companies| && st.companies[i].id == st.users[m].companyId && st.users[m].id in st.companies[i].userIds;
      assert n.users[k].id in n.companies[i].userIds;
    }
  }

  lemma DeleteUserKeepsConsistent(st: Store, sv: Services, header: string, cid: Id, uid: Id)
    requires Consistent(st)
    ensures Consistent(DeleteUser(st, sv, header, cid, uid).After(st))
  {
    var r := DeleteUser(st, sv, header, cid, uid);
    if r.Served? {
      UserDropped(st, r.next, uid, cid);
    }
  }

  // ---- files ----

  /** Appending a file with a fresh id and pushing the id onto the
      storypoints recorded under the file's storypoint and company. */
  lemma FileAppended(st: Store, n: Store, f: FileMeta)
    requires Consistent(st) && !(f.id in FileIds(st.files))
    requires n == st.(files := st.files + [f], storypoints := PushFileId(st.storypoints, f.storypointId, f.companyId, f.id))
    ensures Consistent(n)
  {
    StorypointsFrame(st, n);
    forall i, x | 0 <= i < |n.storypoints| && x in n.storypoints[i].files
      ensures FileAt(n, x, n.storypoints[i].id, n.storypoints[i].companyId)
    {
      if x == f.id && st.storypoints[i].id == f.storypointId && st.storypoints[i].companyId == f.companyId {
        assert n.files[|st.files|] == f;
      } else {
        assert x in st.storypoints[i].files;
        var k :| 0 <= k < |st.files| && st.files[k].id == x && st.files[k].storypointId == st.storypoints[i].id
                 && st.files[k].companyId == st.storypoints[i].companyId;
        assert n.files[k] == st.files[k];
      }
    }
    assert FileIdsUnique(n.files) by {
      forall i, j | 0 <= i < j < |n.files| ensures n.files[i].id != n.files[j].id {
        assert n.files[i] == st.files[i];
        assert FileIds(st.files)[i] == st.files[i].id;
        if j < |st.files| {
          assert n.files[j] == st.files[j];
        }
      }
    }
  }

  lemma UploadFileKeepsConsistent(st: Store, sv: Services, cfg: Config, header: string, cid: Id, spid: Id, up: Upload, now: int)
    requires Consistent(st)
    ensures Consistent(UploadFile(st, sv, cfg, header, cid, spid, up, now).After(st))
  {
    var r := UploadFile(st, sv, cfg, header, cid, spid, up, now);
    if r.Served? {
      FileAppended(st, r.next, FileMeta(NextFileId(st), up.filename.text, spid, cid,
                                        FileGate(st, sv, header, cid, spid).caller.subject, up.size, now));
    }
  }

  /** Dropping a file recorded under (`spid`, `cid`) and pulling its id from
      that storypoint; no other storypoint can list it. */
  lemma FileDropped(st: Store, n: Store, fid: Id, spid: Id, cid: Id)
    requires Consistent(st) && FileAt(st, fid, spid, cid)
    requires n == st.(files := DropFile(st.files, fid), storypoints := PullFileId(st.storypoints, spid, cid, fid))
    ensures Consistent(n)
  {
    StorypointsFrame(st, n);
    forall i, x | 0 <= i < |n.storypoints| && x in n.storypoints[i].files
      ensures FileAt(n, x, n.storypoints[i].id, n.storypoints[i].companyId)
    {
      assert x in st.storypoints[i].files;
      var k :| 0 <= k < |st.files| && st.files[k].id == x && st.files[k].storypointId == st.storypoints[i].id
               && st.files[k].companyId == st.storypoints[i].companyId;
      if !(st.storypoints[i].id == spid && st.storypoints[i].companyId == cid) {
        var m :| 0 <= m < |st.files| && st.files[m].id == fid && st.files[m].storypointId == spid && st.files[m].companyId == cid;
        UniqueFileIds(st.files, k, m);
      }
      assert x != fid;
      var m :| 0 <= m < |n.files| && n.files[m] == st.files[k];
    }
  }

  lemma DeleteFileKeepsConsistent(st: Store, sv: Services, header: string, cid: Id, spid: Id, fid: Id)
    requires Consistent(st)
    ensures Consistent(DeleteFile(st, sv, header, cid, spid, fid).After(st))
  {
    var r := DeleteFile(st, sv, header, cid, spid, fid);
    if r.Served? {
      FileDropped(st, r.next, fid, spid, cid);
    }
  }

  // ---- what the invariant buys ----

  /** The file list answers only with files recorded under the requested
      storypoint and company. */
  lemma ListedFilesBelongToTheStorypoint(st: Store, sv: Services, header: string, cid: Id, spid: Id)
    requires Consistent(st) && ListFiles(st, sv, header, cid, spid).Served?
    ensures forall v :: v in ListFiles(st, sv, header, cid, spid).body ==>
      exists f :: f in st.files && f.storypointId == spid && f.companyId == cid && v == FileViewOf(f)
  {
    var sp := Located(st, spid, cid).value;
    var i :| 0 <= i < |st.storypoints| && st.storypoints[i] == sp;
    forall v | v in ListFiles(st, sv, header, cid, spid).body
      ensures exists f :: f in st.files && f.storypointId == spid && f.companyId == cid && v == FileViewOf(f)
    {
      var f :| f in st.files && f.id in sp.files && v == FileViewOf(f);
      var m :| 0 <= m < |st.files| && st.files[m] == f;
      assert FileAt(st, f.id, spid, cid);
      var k :| 0 <= k < |st.files| && st.files[k].id == f.id && st.files[k].storypointId == spid && st.files[k].companyId == cid;
      FileById(st.files, m, k);
    }
  }

  // ---- uniqueness the routes test but do not keep ----

  /** No two storypoints of one company share coordinates. */
  predicate CoordsUnique(sps: seq<Storypoint>) {
    forall i, j :: 0 <= i < j < |sps| && sps[i].companyId == sps[j].companyId ==> sps[i].coords != sps[j].coords
  }

  /** No two files recorded under one storypoint id share a name. */
  predicate NamesUnique(fs: seq<FileMeta>) {
    forall i, j :: 0 <= i < j < |fs| && fs[i].storypointId == fs[j].storypointId ==> fs[i].filename != fs[j].filename
  }

  /** Adding a storypoint tests the coordinates within the company, so it
      keeps them unique. */
  lemma AddStorypointKeepsCoordsUnique(st: Store, sv: Services, header: string, cid: Id, req: NewStorypoint, now: int)
    requires CoordsUnique(st.storypoints)
    ensures CoordsUnique(AddStorypoint(st, sv, header, cid, req, now).After(st).storypoints)
  {
    var r := AddStorypoint(st, sv, header, cid, req, now);
    if r.Served? {
      var n := r.next.storypoints;
      forall i, j | 0 <= i < j < |n| && n[i].companyId == n[j].companyId ensures n[i].coords != n[j].coords {
        assert n[i] == st.storypoints[i];
        if j < |st.storypoints| {
          assert n[j] == st.storypoints[j];
        }
      }
    }
  }

  /** Editing does not test the coordinates again: moving a storypoint onto
      the coordinates of another storypoint of its company succeeds, and the
      company then has two storypoints at one place. */
  lemma EditStorypointCanDuplicateCoords(st: Store, sv: Services, header: string, cid: Id, spid: Id, p: StorypointPatch, k: nat)
    requires CompanyGate(st, sv, header, cid).Pass? && StorypointIn(st, spid, cid)
    requires k < |st.storypoints| && st.storypoints[k].companyId == cid && st.storypoints[k].id != spid
    requires p.coords == Some(st.storypoints[k].coords)
    ensures EditStorypoint(st, sv, header, cid, spid, p).Served?
    ensures !CoordsUnique(EditStorypoint(st, sv, header, cid, spid, p).next.storypoints)
  {
    var n := EditStorypoint(st, sv, header, cid, spid, p).next.storypoints;
    var m :| 0 <= m < |st.storypoints| && st.storypoints[m].id == spid && st.storypoints[m].companyId == cid;
    assert n[m].coords == n[k].coords && n[m].companyId == n[k].companyId;
    if m < k {
      assert !CoordsUnique(n);
    } else {
      assert !CoordsUnique(n);
    }
  }

  /** Uploading tests the name under the storypoint id, so it keeps names
      unique per storypoint. */
  lemma UploadFileKeepsNamesUnique(st: Store, sv: Services, cfg: Config, header: string, cid: Id, spid: Id, up: Upload, now: int)
    requires NamesUnique(st.files)
    ensures NamesUnique(UploadFile(st, sv, cfg, header, cid, spid, up, now).After(st).files)
  {
    var r := UploadFile(st, sv, cfg, header, cid, spid, up, now);
    if r.Served? {
      var n := r.next.files;
      forall i, j | 0 <= i < j < |n| && n[i].storypointId == n[j].storypointId ensures n[i].filename != n[j].filename {
        assert n[i] == st.files[i];
        if j < |st.files| {
          assert n[j] == st.files[j];
        }
      }
    }
  }

  /** Renaming tests the name under the path storypoint but renames the file
      wherever it is: giving a file the name of another file under its own
      storypoint, through a path that names a different storypoint,
      succeeds and leaves two files of one name under one storypoint. */
  lemma RenameCanDuplicateNames(st: Store, sv: Services, cfg: Config, header: string, cid: Id, spid: Id, i: nat, j: nat)
    requires FileGate(st, sv, header, cid, spid).Pass?
    requires i < |st.files| && j < |st.files| && st.files[j].id != st.files[i].id
    requires st.files[i].storypointId == st.files[j].storypointId
    requires FilenameAccepted(cfg, Text(st.files[j].filename))
    requires !NameAtCompanyStorypoint(st, st.files[j].filename, spid, cid)
    ensures RenameFile(st, sv, cfg, header, cid, spid, st.files[i].id, Text(st.files[j].filename)).Served?
    ensures !NamesUnique(RenameFile(st, sv, cfg, header, cid, spid, st.files[i].id, Text(st.files[j].filename)).next.files)
  {
    var n := RenameFile(st, sv, cfg, header, cid, spid, st.files[i].id, Text(st.files[j].filename)).next.files;
    assert n[i].filename == n[j].filename && n[i].storypointId == n[j].storypointId;
    if i < j {
      assert !NamesUnique(n);
    } else {
      assert !NamesUnique(n);
    }
  }
}

=== FILE: ranking.dfy ===
/** The "nearby" ranking: every storypoint of the company is measured
    against the query point, the list is sorted by distance with a stable
    sort (ties keep collection order), cut with `slice(0, limit)`, and the
    radius filter that follows is evaluated but its result thrown away. */
module Ranking {
  import opened Base
  import opened Records

  /** One element of the nearby answer: `{_id, title, coords, distanceInKm}`. */
  datatype Ranked = Ranked(id: Id, title: string, coords: Coords, km: real)

  /** A ranked storypoint tagged with its position in the collection. */
  datatype Entry = Entry(pos: nat, item: Ranked)

  function Measure(sp: Storypoint, origin: Coords, dist: (Coords, Coords) -> real): Ranked {
    Ranked(sp.id, sp.title, sp.coords, dist(origin, sp.coords))
  }

  /** The storypoints measured and tagged with their positions. */
  function Tag(sps: seq<Storypoint>, origin: Coords, dist: (Coords, Coords) -> real): (r: seq<Entry>)
    ensures |r| == |sps|
    ensures forall i :: 0 <= i < |sps| ==> r[i] == Entry(i, Measure(sps[i], origin, dist))
  {
    seq(|sps|, i requires 0 <= i < |sps| => Entry(i, Measure(sps[i], origin, dist)))
  }

  predicate Sorted(s: seq<Entry>) {
    forall i, j :: 0 <= i < j < |s| ==> s[i].item.km <= s[j].item.km
  }

  /** `a` ranks before `b`: nearer, or as near and earlier in the collection. */
  predicate Before(a: Entry, b: Entry) {
    a.item.km < b.item.km || (a.item.km == b.item.km && a.pos < b.pos)
  }

  /** Sorted by distance, equal distances in collection order. */
  predicate StablySorted(s: seq<Entry>) {
    forall i, j :: 0 <= i < j < |s| ==> Before(s[i], s[j])
  }

  predicate PositionsIncrease(s: seq<Entry>) {
    forall i, j :: 0 <= i < j < |s| ==> s[i].pos < s[j].pos
  }

  predicate NoFartherThanAll(a: Entry, s: seq<Entry>) {
    forall k :: 0 <= k < |s| ==> a.item.km <= s[k].item.km
  }

  predicate BeforeAll(a: Entry, s: seq<Entry>) {
    forall k :: 0 <= k < |s| ==> Before(a, s[k])
  }

  predicate EarlierThanAll(a: Entry, s: seq<Entry>) {
    forall k :: 0 <= k < |s| ==> a.pos < s[k].pos
  }

  lemma SortedCons(a: Entry, t: seq<Entry>)
    requires Sorted(t) && NoFartherThanAll(a, t)
    ensures Sorted([a] + t)
  {
  }

  lemma StableCons(a: Entry, t: seq<Entry>)
    requires StablySorted(t) && BeforeAll(a, t)
    ensures StablySorted([a] + t)
  {
  }

  /** Every element of `u` is `x` or an element of `t`. */
  lemma {:induction false} MemberOfInsert(t: seq<Entry>, x: Entry, u: seq<Entry>, k: nat)
    requires multiset(u) == multiset(t) + multiset{x} && k < |u|
    ensures u[k] == x || exists m :: 0 <= m < |t| && t[m] == u[k]
  {
    assert u[k] in multiset(u);
  }

  /** A lower bound on `t` and on `x` bounds their permutation `u`. */
  lemma {:induction false} BoundsCarryOver(a: Entry, t: seq<Entry>, x: Entry, u: seq<Entry>)
    requires multiset(u) == multiset(t) + multiset{x}
    requires NoFartherThanAll(a, t) && a.item.km <= x.item.km
    ensures NoFartherThanAll(a, u)
  {
    forall k | 0 <= k < |u| ensures a.item.km <= u[k].item.km {
      MemberOfInsert(t, x, u, k);
    }
  }

  lemma {:induction false} PrecedenceCarriesOver(a: Entry, t: seq<Entry>, x: Entry, u: seq<Entry>)
    requires multiset(u) == multiset(t) + multiset{x}
    requires BeforeAll(a, t) && Before(a, x)
    ensures BeforeAll(a, u)
  {
    forall k | 0 <= k < |u| ensures Before(a, u[k]) {
      MemberOfInsert(t, x, u, k);
    }
  }

  lemma {:induction false} EarlinessCarriesOver(a: Entry, t: seq<Entry>, u: seq<Entry>)
    requires multiset(u) == multiset(t) && EarlierThanAll(a, t)
    ensures EarlierThanAll(a, u)
  {
    forall k | 0 <= k < |u| ensures a.pos < u[k].pos {
      assert u[k] in multiset(t);
    }
  }

  /** Putting `x` in front of a list it is no farther than keeps the list
      sorted, and stably sorted when `x` also came first in the collection. */
  lemma InFront(x: Entry, s: seq<Entry>)
    requires |s| > 0 && x.item.km <= s[0].item.km
    ensures Sorted(s) ==> Sorted([x] + s)
    ensures StablySorted(s) && EarlierThanAll(x, s) ==> StablySorted([x] + s)
  {
    if Sorted(s) {
      assert NoFartherThanAll(x, s);
      SortedCons(x, s);
    }
    if StablySorted(s) && EarlierThanAll(x, s) {
      assert BeforeAll(x, s);
      StableCons(x, s);
    }
  }

  /** Keeping the head `h` in front of `rest`, the tail with `x` inserted,
      keeps the order `[h] + t` had. */
  lemma HeadStays(x: Entry, h: Entry, t: seq<Entry>, rest: seq<Entry>)
    requires multiset(rest) == multiset(t) + multiset{x} && h.item.km < x.item.km
    requires Sorted(t) ==> Sorted(rest)
    requires StablySorted(t) && EarlierThanAll(x, t) ==> StablySorted(rest)
    ensures Sorted([h] + t) ==> Sorted([h] + rest)
    ensures StablySorted([h] + t) && EarlierThanAll(x, [h] + t) ==> StablySorted([h] + rest)
  {
    if Sorted([h] + t) {
      assert NoFartherThanAll(h, t) && Sorted(t) by {
        forall k | 0 <= k < |t| ensures h.item.km <= t[k].item.km {
          var u := [h] + t;
          assert u[0] == h && u[k + 1] == t[k];
        }
        forall i, j | 0 <= i < j < |t| ensures t[i].item.km <= t[j].item.km {
          var u := [h] + t;
          assert u[i + 1] == t[i] && u[j + 1] == t[j];
          assert 0 <= i + 1 < j + 1 < |u|;
        }
      }
      BoundsCarryOver(h, t, x, rest);
      SortedCons(h, rest);
    }
    if StablySorted([h] + t) && EarlierThanAll(x, [h] + t) {
      assert BeforeAll(h, t) && StablySorted(t) && EarlierThanAll(x, t) by {
        forall k | 0 <= k < |t| ensures Before(h, t[k]) && x.pos < t[k].pos {
          var u := [h] + t;
          assert u[0] == h && u[k + 1] == t[k];
        }
        forall i, j | 0 <= i < j < |t| ensures Before(t[i], t[j]) {
          var u := [h] + t;
          assert u[i + 1] == t[i] && u[j + 1] == t[j];
          assert 0 <= i + 1 < j + 1 < |u|;
        }
      }
      PrecedenceCarriesOver(h, t, x, rest);
      StableCons(h, rest);
    }
  }

  /** Insert `x` in front of the first entry at least as far away. */
  function Insert(x: Entry, s: seq<Entry>): (r: seq<Entry>)
    ensures multiset(r) == multiset(s) + multiset{x}
    ensures Sorted(s) ==> Sorted(r)
    ensures StablySorted(s) && EarlierThanAll(x, s) ==> StablySorted(r)
  {
    if |s| == 0 then [x]
    else if x.item.km <= s[0].item.km then
      InFront(x, s);
      [x] + s
    else
      var t := s[1..];
      assert s == [s[0]] + t;
      var rest := Insert(x, t);
      HeadStays(x, s[0], t, rest);
      [s[0]] + rest
  }

  /** Insertion sort by distance. */
  function SortByDistance(s: seq<Entry>): (r: seq<Entry>)
    ensures multiset(r) == multiset(s)
    ensures Sorted(r)
    ensures PositionsIncrease(s) ==> StablySorted(r)
  {
    if |s| == 0 then []
    else
      var t := s[1..];
      assert s == [s[0]] + t;
      var rest := SortByDistance(t);
      assert PositionsIncrease(s) ==> PositionsIncrease(t) && EarlierThanAll(s[0], rest) by {
        if PositionsIncrease(s) {
          assert EarlierThanAll(s[0], t);
          EarlinessCarriesOver(s[0], t, rest);
        }
      }
      Insert(s[0], rest)
  }

  /** `slice(0, end)` keeps this many elements of a list of length `len`: the
      end clamps to the length, and a negative end counts back from it. */
  function SliceEnd(len: nat, end: int): (k: nat)
    ensures k <= len
  {
    if end < 0 then (if len + end < 0 then 0 else len + end)
    else if end < len then end
    else len
  }

  lemma TaggedMember(sps: seq<Storypoint>, origin: Coords, dist: (Coords, Coords) -> real, r: seq<Entry>, i: nat)
    requires multiset(r) == multiset(Tag(sps, origin, dist)) && i < |r|
    ensures r[i].pos < |sps| && r[i].item == Measure(sps[r[i].pos], origin, dist)
  {
    var tagged := Tag(sps, origin, dist);
    assert r[i] in multiset(tagged);
    var m :| 0 <= m < |tagged| && tagged[m] == r[i];
  }

  /** The whole company list measured and stably sorted. */
  function RankEntries(sps: seq<Storypoint>, origin: Coords, dist: (Coords, Coords) -> real): (r: seq<Entry>)
    ensures |r| == |sps|
    ensures multiset(r) == multiset(Tag(sps, origin, dist))
    ensures StablySorted(r)
    ensures forall i :: 0 <= i < |r| ==> r[i].pos < |sps| && r[i].item == Measure(sps[r[i].pos], origin, dist)
  {
    var tagged := Tag(sps, origin, dist);
    var r := SortByDistance(tagged);
    assert |r| == |multiset(r)| == |tagged|;
    assert forall i :: 0 <= i < |r| ==> r[i].pos < |sps| && r[i].item == Measure(sps[r[i].pos], origin, dist) by {
      forall i | 0 <= i < |r| ensures r[i].pos < |sps| && r[i].item == Measure(sps[r[i].pos], origin, dist) {
        TaggedMember(sps, origin, dist, r, i);
      }
    }
    r
  }

  /** The nearby answer (`spnts` after `slice`): the radius argument is taken
      but, as in the route, it filters nothing. */
  function Nearby(sps: seq<Storypoint>, origin: Coords, dist: (Coords, Coords) -> real, limit: int, radiusKm: real): (r: seq<Ranked>)
    ensures |r| == SliceEnd(|sps|, limit)
    ensures forall i, j :: 0 <= i < j < |r| ==> r[i].km <= r[j].km
    ensures forall i :: 0 <= i < |r| ==> exists k :: 0 <= k < |sps| && r[i] == Measure(sps[k], origin, dist)
  {
    var ranked := RankEntries(sps, origin, dist);
    var n := SliceEnd(|sps|, limit);
    seq(n, i requires 0 <= i < n => ranked[i].item)
  }

  /** Storypoints at the same distance come out in collection order. */
  lemma NearbyTiesKeepCollectionOrder(sps: seq<Storypoint>, origin: Coords, dist: (Coords, Coords) -> real, limit: int, radiusKm: real)
    ensures var r := Nearby(sps, origin, dist, limit, radiusKm);
      forall i, j :: 0 <= i < j < |r| && r[i].km == r[j].km ==>
        exists ki, kj :: 0 <= ki < kj < |sps| && r[i] == Measure(sps[ki], origin, dist) && r[j] == Measure(sps[kj], origin, dist)
  {
    var r := Nearby(sps, origin, dist, limit, radiusKm);
    var ranked := RankEntries(sps, origin, dist);
    forall i, j | 0 <= i < j < |r| && r[i].km == r[j].km
      ensures exists ki, kj :: 0 <= ki < kj < |sps| && r[i] == Measure(sps[ki], origin, dist) && r[j] == Measure(sps[kj], origin, dist)
    {
      assert Before(ranked[i], ranked[j]);
      assert r[i] == ranked[i].item && r[j] == ranked[j].item;
    }
  }

  /** The answer is the `limit` nearest, ties broken by collection order: a
      storypoint left out is farther away than every one kept, or as far as
      one kept that comes earlier in the collection. So when the limit cuts
      between equally distant storypoints, the earlier ones stay. */
  lemma NearbyKeepsTheNearest(sps: seq<Storypoint>, origin: Coords, dist: (Coords, Coords) -> real, limit: int, radiusKm: real, k: nat)
    requires k < |sps|
    ensures var r := Nearby(sps, origin, dist, limit, radiusKm);
      || Measure(sps[k], origin, dist) in r
      || forall i :: 0 <= i < |r| ==>
           || r[i].km < dist(origin, sps[k].coords)
           || (r[i].km == dist(origin, sps[k].coords) && exists ki :: 0 <= ki < k && r[i] == Measure(sps[ki], origin, dist))
  {
    var r := Nearby(sps, origin, dist, limit, radiusKm);
    var ranked := RankEntries(sps, origin, dist);
    var tagged := Tag(sps, origin, dist);
    assert tagged[k] in multiset(ranked);
    var m :| 0 <= m < |ranked| && ranked[m] == tagged[k];
    if m < |r| {
      assert r[m] == Measure(sps[k], origin, dist);
    } else {
      forall i | 0 <= i < |r|
        ensures || r[i].km < dist(origin, sps[k].coords)
                || (r[i].km == dist(origin, sps[k].coords) && exists ki :: 0 <= ki < k && r[i] == Measure(sps[ki], origin, dist))
      {
        assert Before(ranked[i], ranked[m]);
        assert r[i] == ranked[i].item == Measure(sps[ranked[i].pos], origin, dist);
      }
    }
  }

  /** The tie rule on two equally distant storypoints and a limit of one: the
      earlier one is the answer. */
  lemma NearbyTieAtTheLimitKeepsTheEarlier(a: Storypoint, b: Storypoint, origin: Coords, dist: (Coords, Coords) -> real, radiusKm: real)
    requires dist(origin, a.coords) == dist(origin, b.coords)
    ensures Nearby([a, b], origin, dist, 1, radiusKm) == [Measure(a, origin, dist)]
  {
    var ranked := RankEntries([a, b], origin, dist);
    var tagged := Tag([a, b], origin, dist);
    assert tagged[0] in multiset(ranked) && tagged[1] in multiset(ranked);
    var m0 :| 0 <= m0 < 2 && ranked[m0] == tagged[0];
    var m1 :| 0 <= m1 < 2 && ranked[m1] == tagged[1];
    assert Before(ranked[0], ranked[1]);
  }

  /** No storypoint is dropped for lying outside `radiusKm`, whatever the
      radius: with a limit covering the company, every storypoint is in the
      answer. */
  lemma NearbyIgnoresRadius(sps: seq<Storypoint>, origin: Coords, dist: (Coords, Coords) -> real, limit: int, radiusKm: real, k: nat)
    requires limit >= |sps| && k < |sps|
    ensures Measure(sps[k], origin, dist) in Nearby(sps, origin, dist, limit, radiusKm)
  {
    var r := Nearby(sps, origin, dist, limit, radiusKm);
    var ranked := RankEntries(sps, origin, dist);
    var tagged := Tag(sps, origin, dist);
    assert tagged[k] in multiset(ranked);
    var m :| 0 <= m < |ranked| && ranked[m] == tagged[k];
    assert r[m] == Measure(sps[k], origin, dist);
  }
}

=== FILE: reads.dfy ===
/** The read routes of `src/app.ts`: the caller's own record, and the
    company-scoped listings, search, nearby ranking and single-record
    reads. None of them changes the store. */
module Reads {
  import opened Base
  import opened Records
  import opened Auth
  import Ranking

  /** GET /api/user answers `{_id, fullname, email, company_id}`. */
  datatype UserView = UserView(id: Id, fullname: string, email: string, companyId: Id)

  /** The stripped storypoint of the listing and search answers: `{_id, title, coords}`. */
  datatype Summary = Summary(id: Id, title: string, coords: Coords)

  /** GET of one storypoint answers these fields and no others. */
  datatype StorypointView = StorypointView(
    id: Id, createdAt: int, createdBy: Id, title: string, coords: Coords, description: string, history: seq<string>)

  /** A user as other members see it: `{_id, fullname, email}`. */
  datatype MemberView = MemberView(id: Id, fullname: string, email: string)

  function Summarize(sp: Storypoint): Summary {
    Summary(sp.id, sp.title, sp.coords)
  }

  function ViewOf(sp: Storypoint): StorypointView {
    StorypointView(sp.id, sp.createdAt, sp.createdBy, sp.title, sp.coords, sp.description, sp.history)
  }

  function MemberOf(u: User): MemberView {
    MemberView(u.id, u.fullname, u.email)
  }

  /** `spnts.map(...)` keeping `_id`, `title` and `coords`. */
  function Summaries(sps: seq<Storypoint>): (r: seq<Summary>)
    ensures |r| == |sps| && forall i :: 0 <= i < |sps| ==> r[i] == Summarize(sps[i])
  {
    seq(|sps|, i requires 0 <= i < |sps| => Summarize(sps[i]))
  }

  function Members(us: seq<User>): (r: seq<MemberView>)
    ensures |r| == |us| && forall i :: 0 <= i < |us| ==> r[i] == MemberOf(us[i])
  {
    seq(|us|, i requires 0 <= i < |us| => MemberOf(us[i]))
  }

  /** `s` summarizes one of the entries of `corpus`. */
  predicate SummaryOf(corpus: seq<Storypoint>, s: Summary) {
    exists k :: 0 <= k < |corpus| && s == Summarize(corpus[k])
  }

  /** The fuzzy-search hits, each a position in `corpus`, turned into
      summaries of the corpus entries they name. */
  function Pick(corpus: seq<Storypoint>, hits: seq<nat>): (r: seq<Summary>)
    ensures forall i :: 0 <= i < |r| ==> SummaryOf(corpus, r[i])
  {
    if |hits| == 0 then []
    else
      var rest := Pick(corpus, hits[1..]);
      if hits[0] < |corpus| then [Summarize(corpus[hits[0]])] + rest else rest
  }

  /** A storypoint of company `cid` summarizes to `s`. */
  predicate SummaryOfCompany(st: Store, cid: Id, s: Summary) {
    exists k :: 0 <= k < |st.storypoints| && st.storypoints[k].companyId == cid && s == Summarize(st.storypoints[k])
  }

  /** GET /api/user: `verifyJWT` (401), then the record whose id the token
      names (404). */
  function GetUser(st: Store, sv: Services, header: string): (r: Reply<UserView>)
    ensures r.status == StatusUnauthorized <==> VerifyJwt(st, sv, header).Stop?
    ensures r.Served? ==> r.status == StatusOk && r.next == st
    ensures r.Served? ==> exists i :: 0 <= i < |st.users| && st.users[i].id == VerifyJwt(st, sv, header).caller.subject
                            && r.body == UserView(st.users[i].id, st.users[i].fullname, st.users[i].email, st.users[i].companyId)
    ensures r.Refused? ==> r.status in {StatusUnauthorized, StatusNotFound}
    ensures VerifyJwt(st, sv, header).Pass? ==>
      (r.Served? <==> exists i :: 0 <= i < |st.users| && st.users[i].id == VerifyJwt(st, sv, header).caller.subject)
  {
    match VerifyJwt(st, sv, header)
    case Stop(s) => Refused(s)
    case Pass(c) =>
      match Find(st.users, (u: User) => u.id == c.subject)
      case None => Refused(StatusNotFound)
      case Some(u) => Served(StatusOk, st, UserView(u.id, u.fullname, u.email, u.companyId))
  }

  /** Login and GET /api/user fit together: with a token service whose
      verification gives back what it signed, a user who logs in and sends
      the token as `Bearer <token>` is shown their own record. */
  lemma LoggedInUserSeesOwnRecord(st: Store, sv: Services, email: string, password: string)
    requires forall c: Claim :: sv.verifyToken(sv.signToken(c)) == Some(c)
    requires forall i, j :: 0 <= i < j < |st.users| ==> st.users[i].id != st.users[j].id
    requires Login(st, sv, email, password).Served?
    requires BearerPrefix + Login(st, sv, email, password).body !in st.blacklist
    ensures var u := UserByEmail(st, email).value;
      GetUser(st, sv, BearerPrefix + Login(st, sv, email, password).body)
        == Served(StatusOk, st, UserView(u.id, u.fullname, u.email, u.companyId))
  {
    var u := UserByEmail(st, email).value;
    var token := Login(st, sv, email, password).body;
    var h := BearerPrefix + token;
    assert PrefixAt(h, 0) by { assert h[..|BearerPrefix|] == BearerPrefix; }
    assert h[|BearerPrefix|..] == token;
    assert sv.verifyToken(token) == Some(Claim(u.id, email));
    var m :| 0 <= m < |st.users| && st.users[m] == u;
    var found := Find(st.users, (v: User) => v.id == u.id);
    var n :| 0 <= n < |st.users| && st.users[n] == found.value;
    assert n == m;
  }

  /** GET /api/company/:company_id/storypoints: after the company guards,
      exactly the company's storypoints, stripped. */
  function ListStorypoints(st: Store, sv: Services, header: string, cid: Id): (r: Reply<seq<Summary>>)
    ensures r.Refused? <==> CompanyGate(st, sv, header, cid).Stop?
    ensures r.Refused? ==> r.status == CompanyGate(st, sv, header, cid).status
    ensures r.Served? ==> r.status == StatusOk && r.next == st
    ensures r.Served? ==> forall i :: 0 <= i < |r.body| ==> SummaryOfCompany(st, cid, r.body[i])
    ensures r.Served? ==> forall k :: 0 <= k < |st.storypoints| && st.storypoints[k].companyId == cid ==>
                            Summarize(st.storypoints[k]) in r.body
    ensures r.Served? ==> r.body == Summaries(CompanyStorypoints(st, cid))
  {
    match CompanyGate(st, sv, header, cid)
    case Stop(s) => Refused(s)
    case Pass(_) =>
      var sps := CompanyStorypoints(st, cid);
      var body := Summaries(sps);
      assert forall k :: 0 <= k < |st.storypoints| && st.storypoints[k].companyId == cid ==> Summarize(st.storypoints[k]) in body by {
        forall k | 0 <= k < |st.storypoints| && st.storypoints[k].companyId == cid ensures Summarize(st.storypoints[k]) in body {
          var m :| 0 <= m < |sps| && sps[m] == st.storypoints[k];
          assert body[m] == Summarize(st.storypoints[k]);
        }
      }
      assert forall i :: 0 <= i < |body| ==> SummaryOfCompany(st, cid, body[i]) by {
        forall i | 0 <= i < |body| ensures SummaryOfCompany(st, cid, body[i]) {
          var k :| 0 <= k < |st.storypoints| && st.storypoints[k] == sps[i];
        }
      }
      Served(StatusOk, st, body)
  }

  /** GET .../storypoints/search?q=: a missing, empty or non-string query is
      refused with 400 before any guard; the fuzzy search only ever sees the
      company's storypoints, so every hit is one of them. */
  function SearchStorypoints(st: Store, sv: Services, header: string, cid: Id, q: Param): (r: Reply<seq<Summary>>)
    ensures r.status == StatusBadRequest <==> !(q.Text? && q.text != "")
    ensures q.Text? && q.text != "" ==>
      (r.Refused? <==> CompanyGate(st, sv, header, cid).Stop?) &&
      (r.Refused? ==> r.status == CompanyGate(st, sv, header, cid).status)
    ensures r.Served? ==> r.status == StatusOk && r.next == st
    ensures r.Served? ==> forall i :: 0 <= i < |r.body| ==> SummaryOfCompany(st, cid, r.body[i])
  {
    if !(q.Text? && q.text != "") then Refused(StatusBadRequest)
    else match CompanyGate(st, sv, header, cid)
      case Stop(s) => Refused(s)
      case Pass(_) =>
        var corpus := CompanyStorypoints(st, cid);
        var body := Pick(corpus, sv.fuzzySearch(corpus, q.text));
        assert forall i :: 0 <= i < |body| ==> SummaryOfCompany(st, cid, body[i]) by {
          forall i | 0 <= i < |body| ensures SummaryOfCompany(st, cid, body[i]) {
            assert SummaryOf(corpus, body[i]);
            var k :| 0 <= k < |corpus| && body[i] == Summarize(corpus[k]);
            var m :| 0 <= m < |st.storypoints| && st.storypoints[m] == corpus[k];
          }
        }
        Served(StatusOk, st, body)
  }

  /** GET .../storypoints/nearby?lat=&lng=: both coordinates must be truthy
      (400 before any guard); the answer is the ranking of the company's
      storypoints around the parsed point. */
  function NearbyStorypoints(st: Store, sv: Services, cfg: Config, header: string, cid: Id, lat: Param, lng: Param)
    : (r: Reply<seq<Ranking.Ranked>>)
    ensures r.status == StatusBadRequest <==> !Truthy(lat) || !Truthy(lng)
    ensures Truthy(lat) && Truthy(lng) ==>
      (r.Refused? <==> CompanyGate(st, sv, header, cid).Stop?) &&
      (r.Refused? ==> r.status == CompanyGate(st, sv, header, cid).status)
    ensures r.Served? ==> r.status == StatusOk && r.next == st
    ensures r.Served? ==> |r.body| == Ranking.SliceEnd(|CompanyStorypoints(st, cid)|, cfg.nearbyLimit)
    ensures r.Served? ==> forall i, j :: 0 <= i < j < |r.body| ==> r.body[i].km <= r.body[j].km
    ensures r.Served? ==> forall i :: 0 <= i < |r.body| ==>
      exists k :: 0 <= k < |st.storypoints| && st.storypoints[k].companyId == cid
        && r.body[i] == Ranking.Measure(st.storypoints[k], (sv.parseNumber(lat), sv.parseNumber(lng)), sv.distanceKm)
    ensures r.Served? ==> r.body == Ranking.Nearby(CompanyStorypoints(st, cid), (sv.parseNumber(lat), sv.parseNumber(lng)),
                                                   sv.distanceKm, cfg.nearbyLimit, cfg.nearbyRadiusKm)
  {
    if !Truthy(lat) || !Truthy(lng) then Refused(StatusBadRequest)
    else match CompanyGate(st, sv, header, cid)
      case Stop(s) => Refused(s)
      case Pass(_) =>
        var origin := (sv.parseNumber(lat), sv.parseNumber(lng));
        var sps := CompanyStorypoints(st, cid);
        var body := Ranking.Nearby(sps, origin, sv.distanceKm, cfg.nearbyLimit, cfg.nearbyRadiusKm);
        assert forall i :: 0 <= i < |body| ==>
          exists k :: 0 <= k < |st.storypoints| && st.storypoints[k].companyId == cid
            && body[i] == Ranking.Measure(st.storypoints[k], origin, sv.distanceKm) by {
          forall i | 0 <= i < |body|
            ensures exists k :: 0 <= k < |st.storypoints| && st.storypoints[k].companyId == cid
                                && body[i] == Ranking.Measure(st.storypoints[k], origin, sv.distanceKm) {
            var k :| 0 <= k < |sps| && body[i] == Ranking.Measure(sps[k], origin, sv.distanceKm);
            var m :| 0 <= m < |st.storypoints| && st.storypoints[m] == sps[k];
          }
        }
        Served(StatusOk, st, body)
  }

  /** GET .../storypoints/:storypoint_id: 401, 404 (company), 403, then 404
      unless the storypoint belongs to the path company; the answer never
      carries `company_id` or `files`. */
  function GetStorypoint(st: Store, sv: Services, header: string, cid: Id, spid: Id): (r: Reply<StorypointView>)
    ensures r.status == StatusUnauthorized <==> VerifyJwt(st, sv, header).Stop?
    ensures r.status == StatusForbidden <==>
      VerifyJwt(st, sv, header).Pass? && CompanyExists(st, cid) && !IsMember(st, VerifyJwt(st, sv, header).caller.subject, cid)
    ensures r.status == StatusNotFound <==>
      VerifyJwt(st, sv, header).Pass? &&
      (!CompanyExists(st, cid) || (IsMember(st, VerifyJwt(st, sv, header).caller.subject, cid) && !StorypointIn(st, spid, cid)))
    ensures r.Served? <==> CompanyGate(st, sv, header, cid).Pass? && StorypointIn(st, spid, cid)
    ensures r.Served? ==> r.status == StatusOk && r.next == st
    ensures r.Served? ==> exists k :: 0 <= k < |st.storypoints| && st.storypoints[k].id == spid
                            && st.storypoints[k].companyId == cid && r.body == ViewOf(st.storypoints[k])
  {
    match CompanyGate(st, sv, header, cid)
    case Stop(s) => Refused(s)
    case Pass(_) =>
      match Find(st.storypoints, (sp: Storypoint) => sp.id == spid && sp.companyId == cid)
      case None => Refused(StatusNotFound)
      case Some(sp) => Served(StatusOk, st, ViewOf(sp))
  }

  /** `v` shows one of the users of company `cid`. */
  predicate MemberOfCompany(st: Store, cid: Id, v: MemberView) {
    exists k :: 0 <= k < |st.users| && st.users[k].companyId == cid && v == MemberOf(st.users[k])
  }

  /** GET /api/company/:company_id/users: exactly the company's users. */
  function ListUsers(st: Store, sv: Services, header: string, cid: Id): (r: Reply<seq<MemberView>>)
    ensures r.Refused? <==> CompanyGate(st, sv, header, cid).Stop?
    ensures r.Refused? ==> r.status == CompanyGate(st, sv, header, cid).status
    ensures r.Served? ==> r.status == StatusOk && r.next == st
    ensures r.Served? ==> forall i :: 0 <= i < |r.body| ==> MemberOfCompany(st, cid, r.body[i])
    ensures r.Served? ==> forall k :: 0 <= k < |st.users| && st.users[k].companyId == cid ==> MemberOf(st.users[k]) in r.body
    ensures r.Served? ==> r.body == Members(CompanyUsers(st, cid))
  {
    match CompanyGate(st, sv, header, cid)
    case Stop(s) => Refused(s)
    case Pass(_) =>
      CompanyMembersListed(st, cid);
      Served(StatusOk, st, Members(CompanyUsers(st, cid)))
  }

  /** The member list shows every user of the company and nobody else. */
  lemma CompanyMembersListed(st: Store, cid: Id)
    ensures forall i :: 0 <= i < |Members(CompanyUsers(st, cid))| ==> MemberOfCompany(st, cid, Members(CompanyUsers(st, cid))[i])
    ensures forall k :: 0 <= k < |st.users| && st.users[k].companyId == cid ==> MemberOf(st.users[k]) in Members(CompanyUsers(st, cid))
  {
    var us := CompanyUsers(st, cid);
    var body := Members(us);
    forall k | 0 <= k < |st.users| && st.users[k].companyId == cid ensures MemberOf(st.users[k]) in body {
      var m :| 0 <= m < |us| && us[m] == st.users[k];
      assert body[m] == MemberOf(st.users[k]);
    }
    forall i | 0 <= i < |body| ensures MemberOfCompany(st, cid, body[i]) {
      var k :| 0 <= k < |st.users| && st.users[k] == us[i];
      assert st.users[k].companyId == cid && body[i] == MemberOf(st.users[k]);
    }
  }

  /** GET /api/company/:company_id/users/:user_id: the user, if it belongs to
      the path company (404 otherwise). */
  function GetCompanyUser(st: Store, sv: Services, header: string, cid: Id, uid: Id): (r: Reply<MemberView>)
    ensures r.Served? <==> CompanyGate(st, sv, header, cid).Pass? && IsMember(st, uid, cid)
    ensures r.Refused? && CompanyGate(st, sv, header, cid).Stop? ==> r.status == CompanyGate(st, sv, header, cid).status
    ensures r.Refused? && CompanyGate(st, sv, header, cid).Pass? ==> r.status == StatusNotFound
    ensures r.Served? ==> r.status == StatusOk && r.next == st
    ensures r.Served? ==> exists k :: 0 <= k < |st.users| && st.users[k].id == uid && st.users[k].companyId == cid
                            && r.body == MemberOf(st.users[k])
  {
    match CompanyGate(st, sv, header, cid)
    case Stop(s) => Refused(s)
    case Pass(_) =>
      match Find(st.users, (u: User) => u.id == uid && u.companyId == cid)
      case None => Refused(StatusNotFound)
      case Some(u) => Served(StatusOk, st, MemberOf(u))
  }

  /** The stores agree on everything the company guards read: the
      blacklist, the users and which companies exist. */
  predicate SameAuthority(a: Store, b: Store) {
    a.blacklist == b.blacklist && a.users == b.users && CompanyIds(a.companies) == CompanyIds(b.companies)
  }

  lemma GateReadsOnlyAuthority(a: Store, b: Store, sv: Services, header: string, cid: Id)
    requires SameAuthority(a, b)
    ensures CompanyGate(a, sv, header, cid) == CompanyGate(b, sv, header, cid)
  {
    assert CompanyExists(a, cid) ==> CompanyExists(b, cid) by {
      if CompanyExists(a, cid) {
        var i :| 0 <= i < |a.companies| && a.companies[i].id == cid;
        assert CompanyIds(a.companies)[i] == cid;
        assert b.companies[i].id == cid;
      }
    }
    assert CompanyExists(b, cid) ==> CompanyExists(a, cid) by {
      if CompanyExists(b, cid) {
        var i :| 0 <= i < |b.companies| && b.companies[i].id == cid;
        assert CompanyIds(b.companies)[i] == cid;
        assert a.companies[i].id == cid;
      }
    }
  }

  /** A caller the company guards turn away learns nothing about the
      company's storypoints or users: the answer is the same whatever they
      are. */
  lemma RefusedCallerLearnsNothing(a: Store, b: Store, sv: Services, cfg: Config, header: string, cid: Id, spid: Id, uid: Id, q: Param, lat: Param, lng: Param)
    requires SameAuthority(a, b)
    requires CompanyGate(a, sv, header, cid).Stop?
    ensures ListStorypoints(a, sv, header, cid) == ListStorypoints(b, sv, header, cid)
    ensures SearchStorypoints(a, sv, header, cid, q) == SearchStorypoints(b, sv, header, cid, q)
    ensures NearbyStorypoints(a, sv, cfg, header, cid, lat, lng) == NearbyStorypoints(b, sv, cfg, header, cid, lat, lng)
    ensures GetStorypoint(a, sv, header, cid, spid) == GetStorypoint(b, sv, header, cid, spid)
    ensures ListUsers(a, sv, header, cid) == ListUsers(b, sv, header, cid)
    ensures GetCompanyUser(a, sv, header, cid, uid) == GetCompanyUser(b, sv, header, cid, uid)
  {
    GateReadsOnlyAuthority(a, b, sv, header, cid);
  }

  lemma SummariesAppend(x: seq<Storypoint>, y: seq<Storypoint>)
    ensures Summaries(x + y) == Summaries(x) + Summaries(y)
  {
    forall i | 0 <= i < |x| + |y| ensures Summaries(x + y)[i] == (Summaries(x) + Summaries(y))[i] {
      if i < |x| { assert (x + y)[i] == x[i]; } else { assert (x + y)[i] == y[i - |x|]; }
    }
  }

  lemma MembersAppend(x: seq<User>, y: seq<User>)
    ensures Members(x + y) == Members(x) + Members(y)
  {
    forall i | 0 <= i < |x| + |y| ensures Members(x + y)[i] == (Members(x) + Members(y))[i] {
      if i < |x| { assert (x + y)[i] == x[i]; } else { assert (x + y)[i] == y[i - |x|]; }
    }
  }

  /** The storypoint list keeps store order: when the collection is `a`
      followed by `b`, the company's storypoints from `a` are listed first,
      each once, then those from `b`. */
  lemma StorypointListKeepsStoreOrder(st: Store, sv: Services, header: string, cid: Id, a: seq<Storypoint>, b: seq<Storypoint>)
    requires st.storypoints == a + b
    requires ListStorypoints(st, sv, header, cid).Served?
    ensures ListStorypoints(st, sv, header, cid).body
      == Summaries(CompanyStorypoints(st.(storypoints := a), cid)) + Summaries(CompanyStorypoints(st.(storypoints := b), cid))
  {
    CompanyStorypointsAppend(st, cid, a, b);
    SummariesAppend(CompanyStorypoints(st.(storypoints := a), cid), CompanyStorypoints(st.(storypoints := b), cid));
  }

  /** The member list keeps store order in the same way. */
  lemma MemberListKeepsStoreOrder(st: Store, sv: Services, header: string, cid: Id, a: seq<User>, b: seq<User>)
    requires st.users == a + b
    requires ListUsers(st, sv, header, cid).Served?
    ensures ListUsers(st, sv, header, cid).body
      == Members(CompanyUsers(st.(users := a), cid)) + Members(CompanyUsers(st.(users := b), cid))
  {
    CompanyUsersAppend(st, cid, a, b);
    MembersAppend(CompanyUsers(st.(users := a), cid), CompanyUsers(st.(users := b), cid));
  }
}

=== FILE: records.dfy ===
/** The document store of GeoBase: one sequence of documents per MongoDB
    collection, in natural (insertion) order, plus the configuration and the
    external collaborators (token signing, password hashing, e-mail pattern,
    number parsing, distance, fuzzy search) every handler is given. */
module Records {
  import opened Base

  /** `[lat, lng]` as stored in a storypoint's `coords`. */
  type Coords = (real, real)

  datatype Company = Company(
    id: Id,
    name: string,
    description: string,
    createdAt: int,
    userIds: seq<Id>,
    storypointIds: seq<Id>)

  /** `password` holds the bcrypt digest, never the plaintext. */
  datatype User = User(
    id: Id,
    fullname: string,
    email: string,
    password: string,
    createdAt: int,
    companyId: Id)

  datatype Storypoint = Storypoint(
    id: Id,
    title: string,
    description: string,
    coords: Coords,
    createdAt: int,
    createdBy: Id,
    files: seq<Id>,
    companyId: Id,
    history: seq<string>)

  /** A GridFS `.files` document together with the fields the upload route
      sets on it once the blob is stored. */
  datatype FileMeta = FileMeta(
    id: Id,
    filename: string,
    storypointId: Id,
    companyId: Id,
    createdBy: Id,
    size: int,
    uploadedAt: int)

  /** A snapshot of the database; `blacklist` is the token-blacklist
      collection, one authorization-header string per document. */
  datatype Store = Store(
    companies: seq<Company>,
    users: seq<User>,
    storypoints: seq<Storypoint>,
    files: seq<FileMeta>,
    blacklist: seq<string>)

  /** The payload a session token carries: `{_id, email}`. */
  datatype Claim = Claim(subject: Id, email: string)

  /** The `config` values the handlers read. */
  datatype Config = Config(
    emailValidation: bool,
    passwordValidation: bool,
    filenameValidation: bool,
    maxUploadFileSize: int,
    nearbyLimit: int,
    nearbyRadiusKm: real)

  /** Collaborators outside the model, as uninterpreted functions.
      `verifyToken` is `jwt.verify` with the server secret, `signToken` is
      `jwt.sign`, `passwordMatches(plain, digest)` is `bcrypt.compare` (with
      its errors read as "no match"), `emailPattern` is the e-mail regular
      expression, `parseNumber` is `parseFloat`, `distanceKm` the haversine
      distance and `fuzzySearch` the Fuse.js search, returning positions in
      the corpus it was given, best match first. */
  datatype Services = Services(
    verifyToken: string -> Option<Claim>,
    signToken: Claim -> string,
    hashPassword: string -> string,
    passwordMatches: (string, string) -> bool,
    emailPattern: string -> bool,
    coordsText: Coords -> string,
    parseNumber: Param -> real,
    distanceKm: (Coords, Coords) -> real,
    fuzzySearch: (seq<Storypoint>, string) -> seq<nat>)

  /** What a route handler does: either it answers with an error status and
      leaves the store alone, or it answers with `status` and `body` and the
      store becomes `next`. */
  datatype Reply<T> = Refused(status: int) | Served(status: int, next: Store, body: T)
  {
    function After(st: Store): Store {
      if Served? then next else st
    }
  }

  function UserIds(us: seq<User>): seq<Id> { Ids(us, (u: User) => u.id) }
  function CompanyIds(cs: seq<Company>): seq<Id> { Ids(cs, (c: Company) => c.id) }
  function StorypointIds(sps: seq<Storypoint>): seq<Id> { Ids(sps, (sp: Storypoint) => sp.id) }
  function FileIds(fs: seq<FileMeta>): seq<Id> { Ids(fs, (f: FileMeta) => f.id) }

  // ---- the filters the handlers pass to findOne ----

  /** `companies.findOne({_id: cid}) !== null` */
  predicate CompanyExists(st: Store, cid: Id) {
    exists i :: 0 <= i < |st.companies| && st.companies[i].id == cid
  }

  /** `users.findOne({_id: uid, company_id: cid})` finds a document: the
      sole membership test of the service. */
  predicate IsMember(st: Store, uid: Id, cid: Id) {
    exists i :: 0 <= i < |st.users| && st.users[i].id == uid && st.users[i].companyId == cid
  }

  /** `storypoints.findOne({_id: spid}) !== null`, whatever the company. */
  predicate StorypointExists(st: Store, spid: Id) {
    exists i :: 0 <= i < |st.storypoints| && st.storypoints[i].id == spid
  }

  /** `storypoints.findOne({_id: spid, company_id: cid}) !== null` */
  predicate StorypointIn(st: Store, spid: Id, cid: Id) {
    exists i :: 0 <= i < |st.storypoints| && st.storypoints[i].id == spid && st.storypoints[i].companyId == cid
  }

  /** `files.findOne({_id: fid, storypoint_id: spid, company_id: cid})` */
  predicate FileAt(st: Store, fid: Id, spid: Id, cid: Id) {
    exists i :: 0 <= i < |st.files| && st.files[i].id == fid && st.files[i].storypointId == spid && st.files[i].companyId == cid
  }

  /** `users.findOne({email: email}) !== null` */
  predicate EmailInUse(st: Store, email: string) {
    exists i :: 0 <= i < |st.users| && st.users[i].email == email
  }

  /** `storypoints.findOne({company_id: cid, coords: coords}) !== null` */
  predicate CoordsTaken(st: Store, cid: Id, coords: Coords) {
    exists i :: 0 <= i < |st.storypoints| && st.storypoints[i].companyId == cid && st.storypoints[i].coords == coords
  }

  /** The company's storypoints in collection order:
      `storypoints.find({company_id: cid}).toArray()`. */
  function CompanyStorypoints(st: Store, cid: Id): (r: seq<Storypoint>)
    ensures forall i :: 0 <= i < |r| ==> r[i] in st.storypoints && r[i].companyId == cid
    ensures forall i :: 0 <= i < |st.storypoints| && st.storypoints[i].companyId == cid ==> st.storypoints[i] in r
  {
    Filter(st.storypoints, (sp: Storypoint) => sp.companyId == cid)
  }

  /** The company's users in collection order. */
  function CompanyUsers(st: Store, cid: Id): (r: seq<User>)
    ensures forall i :: 0 <= i < |r| ==> r[i] in st.users && r[i].companyId == cid
    ensures forall i :: 0 <= i < |st.users| && st.users[i].companyId == cid ==> st.users[i] in r
  {
    Filter(st.users, (u: User) => u.companyId == cid)
  }

  /** The company filter keeps store order across a split of the collection. */
  lemma CompanyStorypointsAppend(st: Store, cid: Id, a: seq<Storypoint>, b: seq<Storypoint>)
    requires st.storypoints == a + b
    ensures CompanyStorypoints(st, cid)
      == CompanyStorypoints(st.(storypoints := a), cid) + CompanyStorypoints(st.(storypoints := b), cid)
  {
    FilterAppend(a, b, (sp: Storypoint) => sp.companyId == cid);
  }

  lemma CompanyUsersAppend(st: Store, cid: Id, a: seq<User>, b: seq<User>)
    requires st.users == a + b
    ensures CompanyUsers(st, cid) == CompanyUsers(st.(users := a), cid) + CompanyUsers(st.(users := b), cid)
  {
    FilterAppend(a, b, (u: User) => u.companyId == cid);
  }

  // ---- the updates the handlers issue ----

  /** `companies.updateOne({_id: cid}, {$push: {user_ids: uid}})`: the id goes
      at the end of that company's `user_ids`; nothing else changes. */
  function PushUserId(cs: seq<Company>, cid: Id, uid: Id): (r: seq<Company>)
    ensures |r| == |cs| && CompanyIds(r) == CompanyIds(cs)
    ensures forall i :: 0 <= i < |cs| && cs[i].id != cid ==> r[i] == cs[i]
    ensures forall i :: 0 <= i < |cs| ==> r[i].(userIds := cs[i].userIds) == cs[i]
    ensures forall i :: 0 <= i < |cs| && cs[i].id == cid ==> r[i].userIds == cs[i].userIds + [uid]
    ensures forall i, x :: 0 <= i < |cs| ==> (x in r[i].userIds <==> x in cs[i].userIds || (cs[i].id == cid && x == uid))
  {
    seq(|cs|, i requires 0 <= i < |cs| =>
      if cs[i].id == cid then cs[i].(userIds := cs[i].userIds + [uid]) else cs[i])
  }

  /** `companies.updateOne({_id: cid}, {$pull: {user_ids: uid}})`: the id leaves
      that company's `user_ids`; nothing else changes. */
  function PullUserId(cs: seq<Company>, cid: Id, uid: Id): (r: seq<Company>)
    ensures |r| == |cs| && CompanyIds(r) == CompanyIds(cs)
    ensures forall i :: 0 <= i < |cs| && cs[i].id != cid ==> r[i] == cs[i]
    ensures forall i :: 0 <= i < |cs| ==> r[i].(userIds := cs[i].userIds) == cs[i]
    ensures forall i :: 0 <= i < |cs| && cs[i].id == cid ==> r[i].userIds == Pull(cs[i].userIds, uid)
    ensures forall i, x :: 0 <= i < |cs| ==> (x in r[i].userIds <==> x in cs[i].userIds && !(cs[i].id == cid && x == uid))
  {
    seq(|cs|, i requires 0 <= i < |cs| =>
      if cs[i].id == cid then cs[i].(userIds := Pull(cs[i].userIds, uid)) else cs[i])
  }

  /** `companies.updateOne({_id: cid}, {$push: {storypoint_ids: spid}})` */
  function PushStorypointId(cs: seq<Company>, cid: Id, spid: Id): (r: seq<Company>)
    ensures |r| == |cs| && CompanyIds(r) == CompanyIds(cs)
    ensures forall i :: 0 <= i < |cs| && cs[i].id != cid ==> r[i] == cs[i]
    ensures forall i :: 0 <= i < |cs| ==> r[i].(storypointIds := cs[i].storypointIds) == cs[i]
    ensures forall i :: 0 <= i < |cs| && cs[i].id == cid ==> r[i].storypointIds == cs[i].storypointIds + [spid]
    ensures forall i, x :: 0 <= i < |cs| ==> (x in r[i].storypointIds <==> x in cs[i].storypointIds || (cs[i].id == cid && x == spid))
  {
    seq(|cs|, i requires 0 <= i < |cs| =>
      if cs[i].id == cid then cs[i].(storypointIds := cs[i].storypointIds + [spid]) else cs[i])
  }

  /** `companies.updateOne({_id: cid}, {$pull: {storypoint_ids: spid}})` */
  function PullStorypointId(cs: seq<Company>, cid: Id, spid: Id): (r: seq<Company>)
    ensures |r| == |cs| && CompanyIds(r) == CompanyIds(cs)
    ensures forall i :: 0 <= i < |cs| && cs[i].id != cid ==> r[i] == cs[i]
    ensures forall i :: 0 <= i < |cs| ==> r[i].(storypointIds := cs[i].storypointIds) == cs[i]
    ensures forall i :: 0 <= i < |cs| && cs[i].id == cid ==> r[i].storypointIds == Pull(cs[i].storypointIds, spid)
    ensures forall i, x :: 0 <= i < |cs| ==> (x in r[i].storypointIds <==> x in cs[i].storypointIds && !(cs[i].id == cid && x == spid))
  {
    seq(|cs|, i requires 0 <= i < |cs| =>
      if cs[i].id == cid then cs[i].(storypointIds := Pull(cs[i].storypointIds, spid)) else cs[i])
  }

  /** `storypoints.updateOne({_id: spid, company_id: cid}, {$push: {files: fid}})`:
      only the storypoint matching both the id and the company gains the file. */
  function PushFileId(sps: seq<Storypoint>, spid: Id, cid: Id, fid: Id): (r: seq<Storypoint>)
    ensures |r| == |sps| && StorypointIds(r) == StorypointIds(sps)
    ensures forall i :: 0 <= i < |sps| && !(sps[i].id == spid && sps[i].companyId == cid) ==> r[i] == sps[i]
    ensures forall i :: 0 <= i < |sps| ==> r[i].(files := sps[i].files) == sps[i]
    ensures forall i :: 0 <= i < |sps| && sps[i].id == spid && sps[i].companyId == cid ==> r[i].files == sps[i].files + [fid]
    ensures forall i, x :: 0 <= i < |sps| ==> (x in r[i].files <==> x in sps[i].files || (sps[i].id == spid && sps[i].companyId == cid && x == fid))
  {
    seq(|sps|, i requires 0 <= i < |sps| =>
      if sps[i].id == spid && sps[i].companyId == cid then sps[i].(files := sps[i].files + [fid]) else sps[i])
  }

  /** `storypoints.updateOne({_id: spid, company_id: cid}, {$pull: {files: fid}})` */
  function PullFileId(sps: seq<Storypoint>, spid: Id, cid: Id, fid: Id): (r: seq<Storypoint>)
    ensures |r| == |sps| && StorypointIds(r) == StorypointIds(sps)
    ensures forall i :: 0 <= i < |sps| && !(sps[i].id == spid && sps[i].companyId == cid) ==> r[i] == sps[i]
    ensures forall i :: 0 <= i < |sps| ==> r[i].(files := sps[i].files) == sps[i]
    ensures forall i :: 0 <= i < |sps| && sps[i].id == spid && sps[i].companyId == cid ==> r[i].files == Pull(sps[i].files, fid)
    ensures forall i, x :: 0 <= i < |sps| ==> (x in r[i].files <==> x in sps[i].files && !(sps[i].id == spid && sps[i].companyId == cid && x == fid))
  {
    seq(|sps|, i requires 0 <= i < |sps| =>
      if sps[i].id == spid && sps[i].companyId == cid then sps[i].(files := Pull(sps[i].files, fid)) else sps[i])
  }

  /** `deleteOne({_id: id})` on the users: every user with that id leaves,
      the others stay in their order. */
  function DropUser(us: seq<User>, uid: Id): (r: seq<User>)
    ensures forall k :: 0 <= k < |r| ==> r[k] in us && r[k].id != uid
    ensures forall k :: 0 <= k < |us| && us[k].id != uid ==> us[k] in r
    ensures (forall i, j :: 0 <= i < j < |us| ==> us[i].id != us[j].id) ==> forall i, j :: 0 <= i < j < |r| ==> r[i].id != r[j].id
    ensures (forall i, j :: 0 <= i < j < |us| ==> us[i].email != us[j].email) ==>
      forall i, j :: 0 <= i < j < |r| ==> r[i].email != r[j].email
  {
    var keep := (u: User) => u.id != uid;
    SurvivorsStayDistinct(us, keep);
    Filter(us, keep)
  }

  lemma SurvivorsStayDistinct(us: seq<User>, keep: User -> bool)
    ensures (forall i, j :: 0 <= i < j < |us| ==> us[i].id != us[j].id) ==>
      forall i, j :: 0 <= i < j < |Filter(us, keep)| ==> Filter(us, keep)[i].id != Filter(us, keep)[j].id
    ensures (forall i, j :: 0 <= i < j < |us| ==> us[i].email != us[j].email) ==>
      forall i, j :: 0 <= i < j < |Filter(us, keep)| ==> Filter(us, keep)[i].email != Filter(us, keep)[j].email
  {
    if forall i, j :: 0 <= i < j < |us| ==> us[i].id != us[j].id {
      FilterKeepsDistinct(us, keep, (u: User) => u.id);
    }
    if forall i, j :: 0 <= i < j < |us| ==> us[i].email != us[j].email {
      FilterKeepsDistinct(us, keep, (u: User) => u.email);
    }
  }

  /** `deleteOne({_id: id})` on the storypoints. */
  function DropStorypoint(sps: seq<Storypoint>, spid: Id): (r: seq<Storypoint>)
    ensures forall k :: 0 <= k < |r| ==> r[k] in sps && r[k].id != spid
    ensures forall k :: 0 <= k < |sps| && sps[k].id != spid ==> sps[k] in r
    ensures (forall i, j :: 0 <= i < j < |sps| ==> sps[i].id != sps[j].id) ==> forall i, j :: 0 <= i < j < |r| ==> r[i].id != r[j].id
  {
    var keep := (sp: Storypoint) => sp.id != spid;
    var r := Filter(sps, keep);
    assert (forall i, j :: 0 <= i < j < |sps| ==> sps[i].id != sps[j].id) ==> forall i, j :: 0 <= i < j < |r| ==> r[i].id != r[j].id by {
      if forall i, j :: 0 <= i < j < |sps| ==> sps[i].id != sps[j].id {
        FilterKeepsDistinct(sps, keep, (sp: Storypoint) => sp.id);
      }
    }
    r
  }

  /** `deleteOne({_id: id})` on the file documents. */
  function DropFile(fs: seq<FileMeta>, fid: Id): (r: seq<FileMeta>)
    ensures forall k :: 0 <= k < |r| ==> r[k] in fs && r[k].id != fid
    ensures forall k :: 0 <= k < |fs| && fs[k].id != fid ==> fs[k] in r
    ensures (forall i, j :: 0 <= i < j < |fs| ==> fs[i].id != fs[j].id) ==> forall i, j :: 0 <= i < j < |r| ==> r[i].id != r[j].id
  {
    var keep := (f: FileMeta) => f.id != fid;
    var r := Filter(fs, keep);
    assert (forall i, j :: 0 <= i < j < |fs| ==> fs[i].id != fs[j].id) ==> forall i, j :: 0 <= i < j < |r| ==> r[i].id != r[j].id by {
      if forall i, j :: 0 <= i < j < |fs| ==> fs[i].id != fs[j].id {
        FilterKeepsDistinct(fs, keep, (f: FileMeta) => f.id);
      }
    }
    r
  }
}

=== FILE: server.dfy ===
/** The service as a whole: a request is one of the write routes, handling
    it moves the store on, and a trace of requests is handled one after the
    other. The read routes all leave the store as it is, so they are not
    among the requests. */
module Server {
  import opened Base
  import opened Records
  import opened Auth
  import opened Writes
  import opened Attachments
  import opened Consistency

  datatype Request =
    | PostLogin(email: string, password: string)
    | PostLogout(header: string)
    | PostCompany(header: string, registration: Registration)
    | PostStorypoint(header: string, cid: Id, storypoint: NewStorypoint)
    | PutStorypoint(header: string, cid: Id, spid: Id, storypointPatch: StorypointPatch)
    | DropStorypointRoute(header: string, cid: Id, spid: Id)
    | PostUser(header: string, cid: Id, user: NewUser)
    | PutUser(header: string, cid: Id, uid: Id, userPatch: UserPatch)
    | DropUserRoute(header: string, cid: Id, uid: Id)
    | PostFile(header: string, cid: Id, spid: Id, upload: Upload)
    | DropFileRoute(header: string, cid: Id, spid: Id, fid: Id)
    | PutFileName(header: string, cid: Id, spid: Id, fid: Id, name: Param)

  /** A request and the clock reading the handler sees. */
  datatype Event = Event(request: Request, at: int)

  /** The status a request is answered with and the store it leaves. */
  datatype Outcome = Outcome(status: int, next: Store)

  function Outcome'<T>(st: Store, r: Reply<T>): Outcome {
    Outcome(r.status, r.After(st))
  }

  /** Registration is dispatched to the corrected handler. The handler as
      written leaves exactly the same store (see the contract of
      `RegisterCompanyAsWritten`) and differs only in the status it
      answers, so every result below about the stores a trace leaves holds
      for the program as written too. */
  function Handle(st: Store, sv: Services, cfg: Config, e: Event): Outcome {
    match e.request
    case PostLogin(email, password) => Outcome'(st, Login(st, sv, email, password))
    case PostLogout(h) => Outcome'(st, Logout(st, sv, h))
    case PostCompany(h, reg) => Outcome'(st, RegisterCompany(st, sv, cfg, h, reg, e.at))
    case PostStorypoint(h, cid, sp) => Outcome'(st, AddStorypoint(st, sv, h, cid, sp, e.at))
    case PutStorypoint(h, cid, spid, p) => Outcome'(st, EditStorypoint(st, sv, h, cid, spid, p))
    case DropStorypointRoute(h, cid, spid) => Outcome'(st, DeleteStorypoint(st, sv, h, cid, spid))
    case PostUser(h, cid, u) => Outcome'(st, AddUser(st, sv, cfg, h, cid, u, e.at))
    case PutUser(h, cid, uid, p) => Outcome'(st, EditUser(st, sv, cfg, h, cid, uid, p))
    case DropUserRoute(h, cid, uid) => Outcome'(st, DeleteUser(st, sv, h, cid, uid))
    case PostFile(h, cid, spid, up) => Outcome'(st, UploadFile(st, sv, cfg, h, cid, spid, up, e.at))
    case DropFileRoute(h, cid, spid, fid) => Outcome'(st, DeleteFile(st, sv, h, cid, spid, fid))
    case PutFileName(h, cid, spid, fid, name) => Outcome'(st, RenameFile(st, sv, cfg, h, cid, spid, fid, name))
  }

  /** The store after handling `events` in order. */
  function Run(st: Store, sv: Services, cfg: Config, events: seq<Event>): Store
    decreases |events|
  {
    if |events| == 0 then st
    else Run(Handle(st, sv, cfg, events[0]).next, sv, cfg, events[1..])
  }

  /** Every request takes a consistent store to a consistent store. */
  lemma HandleKeepsConsistent(st: Store, sv: Services, cfg: Config, e: Event)
    requires Consistent(st)
    ensures Consistent(Handle(st, sv, cfg, e).next)
  {
    match e.request
    case PostLogin(email, password) => assert Login(st, sv, email, password).After(st) == st;
    case PostLogout(h) => LogoutKeepsConsistent(st, sv, h);
    case PostCompany(h, reg) => RegisterCompanyKeepsConsistent(st, sv, cfg, h, reg, e.at);
    case PostStorypoint(h, cid, sp) => AddStorypointKeepsConsistent(st, sv, h, cid, sp, e.at);
    case PutStorypoint(h, cid, spid, p) => EditStorypointKeepsConsistent(st, sv, h, cid, spid, p);
    case DropStorypointRoute(h, cid, spid) => DeleteStorypointKeepsConsistent(st, sv, h, cid, spid);
    case PostUser(h, cid, u) => AddUserKeepsConsistent(st, sv, cfg, h, cid, u, e.at);
    case PutUser(h, cid, uid, p) => EditUserKeepsConsistent(st, sv, cfg, h, cid, uid, p);
    case DropUserRoute(h, cid, uid) => DeleteUserKeepsConsistent(st, sv, h, cid, uid);
    case PostFile(h, cid, spid, up) => UploadFileKeepsConsistent(st, sv, cfg, h, cid, spid, up, e.at);
    case DropFileRoute(h, cid, spid, fid) => DeleteFileKeepsConsistent(st, sv, h, cid, spid, fid);
    case PutFileName(h, cid, spid, fid, name) => RenameFileKeepsConsistent(st, sv, cfg, h, cid, spid, fid, name);
  }

  /** Starting from a consistent store (the empty database is one), every
      trace of requests leaves a consistent store. */
  lemma {:induction false} RunKeepsConsistent(st: Store, sv: Services, cfg: Config, events: seq<Event>)
    requires Consistent(st)
    ensures Consistent(Run(st, sv, cfg, events))
    decreases |events|
  {
    if |events| > 0 {
      HandleKeepsConsistent(st, sv, cfg, events[0]);
      RunKeepsConsistent(Handle(st, sv, cfg, events[0]).next, sv, cfg, events[1..]);
    }
  }

  /** No request takes a header off the blacklist; only a logout adds one. */
  lemma HandleKeepsBlacklist(st: Store, sv: Services, cfg: Config, e: Event)
    ensures forall t :: t in st.blacklist ==> t in Handle(st, sv, cfg, e).next.blacklist
    ensures !e.request.PostLogout? ==> Handle(st, sv, cfg, e).next.blacklist == st.blacklist
  {
  }

  /** A header on the blacklist stays there, whatever requests follow. */
  lemma {:induction false} RunKeepsBlacklist(st: Store, sv: Services, cfg: Config, events: seq<Event>, header: string)
    requires header in st.blacklist
    ensures header in Run(st, sv, cfg, events).blacklist
    decreases |events|
  {
    if |events| > 0 {
      HandleKeepsBlacklist(st, sv, cfg, events[0]);
      RunKeepsBlacklist(Handle(st, sv, cfg, events[0]).next, sv, cfg, events[1..], header);
    }
  }

  /** Once a logout has gone through, the header it carried is refused by
      `verifyJWT` after any later trace of requests. */
  lemma LoggedOutStaysOut(st: Store, sv: Services, cfg: Config, header: string, at: int, later: seq<Event>)
    requires Logout(st, sv, header).Served?
    ensures VerifyJwt(Run(st, sv, cfg, [Event(PostLogout(header), at)] + later), sv, header) == Stop(StatusUnauthorized)
  {
    var events := [Event(PostLogout(header), at)] + later;
    var after := Handle(st, sv, cfg, events[0]).next;
    assert events[1..] == later;
    assert header in after.blacklist;
    RunKeepsBlacklist(after, sv, cfg, later, header);
  }

  /** The authorization header a request carries, if its route checks one. */
  function HeaderOf(r: Request): Option<string> {
    match r
    case PostLogin(_, _) => None
    case PostLogout(h) => Some(h)
    case PostCompany(h, _) => Some(h)
    case PostStorypoint(h, _, _) => Some(h)
    case PutStorypoint(h, _, _, _) => Some(h)
    case DropStorypointRoute(h, _, _) => Some(h)
    case PostUser(h, _, _) => Some(h)
    case PutUser(h, _, _, _) => Some(h)
    case DropUserRoute(h, _, _) => Some(h)
    case PostFile(h, _, _, _) => Some(h)
    case DropFileRoute(h, _, _, _) => Some(h)
    case PutFileName(h, _, _, _, _) => Some(h)
  }

  /** A revoked header can change nothing: every route that needs a caller
      refuses it (401, or 404 where the company test comes first) and leaves
      the store as it was. Registration is the exception, as it serves only
      callers who are not logged in. */
  lemma RevokedHeaderChangesNothing(st: Store, sv: Services, cfg: Config, e: Event)
    requires HeaderOf(e.request).Some? && HeaderOf(e.request).value in st.blacklist
    requires !e.request.PostCompany?
    ensures Handle(st, sv, cfg, e).next == st
    ensures Handle(st, sv, cfg, e).status in {StatusUnauthorized, StatusNotFound}
  {
  }
}

=== FILE: validation.dfy ===
/** The input validators of `src/app.ts`: the password pattern, the filename
    pattern and the order of the e-mail checks. A Dafny `char` is a Unicode
    scalar value; a JavaScript regular expression without the `u` flag sees
    UTF-16 code units instead, so a character above U+FFFF counts as two
    units where the pattern counts (`.{0,7}`). The two surrogate units match
    none of the character classes the patterns name, so the classes can be
    tested on whole characters. */
module Validation {
  import opened Base
  import opened Records

  predicate IsDigit(c: char) { '0' <= c <= '9' }
  predicate IsUpper(c: char) { 'A' <= c <= 'Z' }
  predicate IsLower(c: char) { 'a' <= c <= 'z' }
  predicate IsAlnum(c: char) { IsDigit(c) || IsUpper(c) || IsLower(c) }

  /** The characters `.` does not match without the `s` flag. */
  predicate IsLineTerminator(c: char) {
    c == '\n' || c == '\r' || c == '\U{2028}' || c == '\U{2029}'
  }

  // ---- passwordRegex = /^(.{0,7}|[^0-9]*|[^A-Z]*|[^a-z]*|[a-zA-Z0-9]*)$/ ----
  // The pattern describes the passwords to REJECT; one predicate per
  // alternative, each anchored at both ends.

  /** The UTF-16 code units `c` takes: two for a character outside the
      Basic Multilingual Plane, one otherwise. */
  function Units(c: char): nat {
    if c > '\U{FFFF}' then 2 else 1
  }

  /** The JavaScript `length` of `s`: its count of UTF-16 code units. */
  function Utf16Length(s: string): (n: nat)
    ensures |s| <= n <= 2 * |s|
  {
    if |s| == 0 then 0 else Utf16Length(s[..|s| - 1]) + Units(s[|s| - 1])
  }

  /** `.{0,7}`: at most seven code units, none of them a line terminator. */
  predicate ShortLine(p: string) {
    Utf16Length(p) <= 7 && forall i :: 0 <= i < |p| ==> !IsLineTerminator(p[i])
  }
  predicate NoDigit(p: string) { forall i :: 0 <= i < |p| ==> !IsDigit(p[i]) }
  predicate NoUpper(p: string) { forall i :: 0 <= i < |p| ==> !IsUpper(p[i]) }
  predicate NoLower(p: string) { forall i :: 0 <= i < |p| ==> !IsLower(p[i]) }
  predicate OnlyAlnum(p: string) { forall i :: 0 <= i < |p| ==> IsAlnum(p[i]) }

  /** `passwordRegex.test(p)` */
  predicate WeakPassword(p: string) {
    ShortLine(p) || NoDigit(p) || NoUpper(p) || NoLower(p) || OnlyAlnum(p)
  }

  /** `checkPasssword`: true when the handler may go on, false when it has
      answered 400. */
  predicate PasswordAccepted(cfg: Config, p: string) {
    !(cfg.passwordValidation && WeakPassword(p))
  }

  /** The password policy stated positively: eight UTF-16 code units (or a
      line break), a digit, an upper-case and a lower-case letter and a
      character outside [a-zA-Z0-9]. */
  predicate StrongPassword(p: string) {
    && (Utf16Length(p) >= 8 || exists i :: 0 <= i < |p| && IsLineTerminator(p[i]))
    && (exists i :: 0 <= i < |p| && IsDigit(p[i]))
    && (exists i :: 0 <= i < |p| && IsUpper(p[i]))
    && (exists i :: 0 <= i < |p| && IsLower(p[i]))
    && (exists i :: 0 <= i < |p| && !IsAlnum(p[i]))
  }

  /** With validation on, a password passes exactly when it meets the
      positive policy; with validation off, every password passes. */
  lemma PasswordAcceptedIff(cfg: Config, p: string)
    ensures PasswordAccepted(cfg, p) <==> !cfg.passwordValidation || StrongPassword(p)
  {
  }

  /** `.{0,7}` does not match a line terminator, so a four-character password
      holding a line break passes the length rule. */
  lemma ShortPasswordWithLineBreakPasses(cfg: Config)
    requires cfg.passwordValidation
    ensures PasswordAccepted(cfg, "aB3\n")
  {
    var p := "aB3\n";
    assert IsLineTerminator(p[3]) && IsDigit(p[2]) && IsUpper(p[1]) && IsLower(p[0]) && !IsAlnum(p[3]);
  }

  /** Six characters, two of them outside the Basic Multilingual Plane, make
      eight code units: `.{0,7}` fails on them and the password passes. */
  lemma AstralCharactersCountTwice(cfg: Config)
    requires cfg.passwordValidation
    ensures PasswordAccepted(cfg, "aB3!\U{1F600}\U{1F600}")
  {
    var p := "aB3!\U{1F600}\U{1F600}";
    assert Utf16Length(p[..1]) == 1 by { assert p[..1][..0] == []; }
    assert Utf16Length(p[..2]) == 2 by { assert p[..2][..1] == p[..1]; }
    assert Utf16Length(p[..3]) == 3 by { assert p[..3][..2] == p[..2]; }
    assert Utf16Length(p[..4]) == 4 by { assert p[..4][..3] == p[..3]; }
    assert Utf16Length(p[..5]) == 6 by { assert p[..5][..4] == p[..4]; }
    assert Utf16Length(p) == 8 by { assert p[..5] == p[..|p| - 1]; }
    assert IsDigit(p[2]) && IsUpper(p[1]) && IsLower(p[0]) && !IsAlnum(p[3]);
  }

  /** One pass over the password computing `passwordRegex.test`. */
  method ScanPassword(p: string) returns (weak: bool)
    ensures weak <==> WeakPassword(p)
  {
    var digit, upper, lower, other, brk := false, false, false, false, false;
    var units := 0;
    var i := 0;
    while i < |p|
      invariant 0 <= i <= |p|
      invariant units == Utf16Length(p[..i])
      invariant digit <==> exists k :: 0 <= k < i && IsDigit(p[k])
      invariant upper <==> exists k :: 0 <= k < i && IsUpper(p[k])
      invariant lower <==> exists k :: 0 <= k < i && IsLower(p[k])
      invariant other <==> exists k :: 0 <= k < i && !IsAlnum(p[k])
      invariant brk <==> exists k :: 0 <= k < i && IsLineTerminator(p[k])
    {
      var c := p[i];
      digit := digit || IsDigit(c);
      upper := upper || IsUpper(c);
      lower := lower || IsLower(c);
      other := other || !IsAlnum(c);
      brk := brk || IsLineTerminator(c);
      assert p[..i + 1][..i] == p[..i];
      units := units + Units(c);
      i := i + 1;
    }
    assert p[..i] == p;
    weak := (units <= 7 && !brk) || !digit || !upper || !lower || !other;
  }

  // ---- filenameRegex = /^[\w\-. ]+$/ ----

  /** `[\w\-. ]`: ASCII letters, digits, underscore, hyphen, dot, space. */
  predicate IsFilenameChar(c: char) {
    IsAlnum(c) || c == '_' || c == '-' || c == '.' || c == ' '
  }

  /** `filenameRegex.test(s)` */
  predicate FilenamePattern(s: string) {
    |s| > 0 && forall i :: 0 <= i < |s| ==> IsFilenameChar(s[i])
  }

  /** `checkFilename`: a value that is not a string is refused whatever the
      configuration; a string is held to the pattern only when filename
      validation is on. */
  predicate FilenameAccepted(cfg: Config, name: Param) {
    name.Text? && (!cfg.filenameValidation || FilenamePattern(name.text))
  }

  /** The filename check in positive terms: a string, and with validation on a
      non-empty one over [A-Za-z0-9_ .-]. */
  lemma FilenameAcceptedIff(cfg: Config, name: Param)
    ensures FilenameAccepted(cfg, name) <==>
      match name
      case Text(s) => !cfg.filenameValidation || (s != "" && forall i :: 0 <= i < |s| ==> IsFilenameChar(s[i]))
      case _ => false
  {
  }

  /** With validation on, an accepted filename cannot name another directory:
      it holds no path separator and is not empty. */
  lemma AcceptedFilenameHasNoSeparator(cfg: Config, s: string)
    requires cfg.filenameValidation && FilenameAccepted(cfg, Text(s))
    ensures s != "" && '/' !in s && '\\' !in s
  {
  }

  /** One pass over the name computing `filenameRegex.test`. */
  method ScanFilename(s: string) returns (ok: bool)
    ensures ok <==> FilenamePattern(s)
  {
    ok := |s| > 0;
    var i := 0;
    while i < |s|
      invariant 0 <= i <= |s|
      invariant ok <==> |s| > 0 && forall k :: 0 <= k < i ==> IsFilenameChar(s[k])
    {
      ok := ok && IsFilenameChar(s[i]);
      i := i + 1;
    }
  }

  // ---- checkEmail ----

  /** `checkEmail`: the global uniqueness test (409) comes before the pattern
      test (400), which only runs when e-mail validation is on. None means
      the handler may go on. */
  function EmailVerdict(st: Store, sv: Services, cfg: Config, email: string): (r: Option<int>)
    ensures r == Some(StatusConflict) <==> EmailInUse(st, email)
    ensures r == Some(StatusBadRequest) <==> !EmailInUse(st, email) && cfg.emailValidation && !sv.emailPattern(email)
    ensures r.None? ==> !EmailInUse(st, email)
  {
    if EmailInUse(st, email) then Some(StatusConflict)
    else if cfg.emailValidation && !sv.emailPattern(email) then Some(StatusBadRequest)
    else None
  }
}

=== FILE: writes.dfy ===
/** The write routes on companies, users and storypoints: company
    registration, adding, editing and deleting storypoints and users. Each
    request is one sequential step; the two-document updates the routes make
    (a record and its company's id list) happen together. */
module Writes {
  import opened Base
  import opened Records
  import opened Auth
  import opened Validation

  // ---- storypoints ----

  /** The `storypoint` body of POST .../storypoints. */
  datatype NewStorypoint = NewStorypoint(coords: Coords, title: Option<string>, description: Option<string>)

  /** The record the add route inserts: title defaults to the coordinates'
      text, description to `''`; no history and no files yet. */
  function CreatedStorypoint(sv: Services, id: Id, cid: Id, creator: Id, req: NewStorypoint, now: int): (sp: Storypoint)
    ensures sp.id == id && sp.companyId == cid && sp.createdBy == creator && sp.coords == req.coords && sp.createdAt == now
    ensures sp.title == if Given(req.title) then req.title.value else sv.coordsText(req.coords)
    ensures sp.description == if Given(req.description) then req.description.value else ""
    ensures sp.files == [] && sp.history == []
  {
    Storypoint(
      id := id,
      title := if Given(req.title) then req.title.value else sv.coordsText(req.coords),
      description := if Given(req.description) then req.description.value else "",
      coords := req.coords,
      createdAt := now,
      createdBy := creator,
      files := [],
      companyId := cid,
      history := [])
  }

  /** POST /api/company/:company_id/storypoints: company guards, then 409 if
      the company already has a storypoint at these coordinates; otherwise a
      new record, its id appended to the company's `storypoint_ids`. */
  function AddStorypoint(st: Store, sv: Services, header: string, cid: Id, req: NewStorypoint, now: int): (r: Reply<Id>)
    ensures CompanyGate(st, sv, header, cid).Stop? ==> r == Refused(CompanyGate(st, sv, header, cid).status)
    ensures r.status == StatusConflict <==> CompanyGate(st, sv, header, cid).Pass? && CoordsTaken(st, cid, req.coords)
    ensures r.Served? <==> CompanyGate(st, sv, header, cid).Pass? && !CoordsTaken(st, cid, req.coords)
    ensures r.Served? ==> r.status == StatusCreated && !StorypointExists(st, r.body)
    ensures r.Served? ==> r.next == st.(
      storypoints := st.storypoints + [CreatedStorypoint(sv, r.body, cid, CompanyGate(st, sv, header, cid).caller.subject, req, now)],
      companies := PushStorypointId(st.companies, cid, r.body))
  {
    match CompanyGate(st, sv, header, cid)
    case Stop(s) => Refused(s)
    case Pass(c) =>
      if CoordsTaken(st, cid, req.coords) then Refused(StatusConflict)
      else
        var id := FreshId(StorypointIds(st.storypoints));
        var sp := CreatedStorypoint(sv, id, cid, c.subject, req, now);
        Served(StatusCreated, st.(storypoints := st.storypoints + [sp], companies := PushStorypointId(st.companies, cid, id)), id)
  }

  /** The `storypoint` body of PUT .../storypoints/:storypoint_id; a field
      replaces the stored one only when it is truthy. */
  datatype StorypointPatch = StorypointPatch(
    title: Option<string>, description: Option<string>, coords: Option<Coords>, history: Option<seq<string>>)

  /** The edited record: title, description, coordinates and history are the
      only fields that can change. */
  function Patched(sp: Storypoint, p: StorypointPatch): (r: Storypoint)
    ensures r.id == sp.id && r.companyId == sp.companyId && r.createdBy == sp.createdBy
    ensures r.createdAt == sp.createdAt && r.files == sp.files
    ensures r.title == (if Given(p.title) then p.title.value else sp.title)
    ensures r.description == (if Given(p.description) then p.description.value else sp.description)
    ensures r.coords == (if p.coords.Some? then p.coords.value else sp.coords)
    ensures r.history == (if p.history.Some? then p.history.value else sp.history)
  {
    sp.(title := if Given(p.title) then p.title.value else sp.title,
        description := if Given(p.description) then p.description.value else sp.description,
        coords := if p.coords.Some? then p.coords.value else sp.coords,
        history := if p.history.Some? then p.history.value else sp.history)
  }

  /** PUT /api/company/:company_id/storypoints/:storypoint_id: company guards,
      404 unless the storypoint belongs to the company, then the patch; the
      coordinates are not checked for uniqueness again. */
  function EditStorypoint(st: Store, sv: Services, header: string, cid: Id, spid: Id, p: StorypointPatch): (r: Reply<()>)
    ensures CompanyGate(st, sv, header, cid).Stop? ==> r == Refused(CompanyGate(st, sv, header, cid).status)
    ensures r.status == StatusNotFound <==>
      (CompanyGate(st, sv, header, cid).Stop? && CompanyGate(st, sv, header, cid).status == StatusNotFound)
      || (CompanyGate(st, sv, header, cid).Pass? && !StorypointIn(st, spid, cid))
    ensures r.Served? <==> CompanyGate(st, sv, header, cid).Pass? && StorypointIn(st, spid, cid)
    ensures r.Served? ==> r.status == StatusOk
    ensures r.Served? ==> r.next.companies == st.companies && r.next.users == st.users
                          && r.next.files == st.files && r.next.blacklist == st.blacklist
    ensures r.Served? ==> |r.next.storypoints| == |st.storypoints|
    ensures r.Served? ==> forall k :: 0 <= k < |st.storypoints| ==>
      r.next.storypoints[k] == if st.storypoints[k].id == spid && st.storypoints[k].companyId == cid
                               then Patched(st.storypoints[k], p) else st.storypoints[k]
  {
    match CompanyGate(st, sv, header, cid)
    case Stop(s) => Refused(s)
    case Pass(_) =>
      if !StorypointIn(st, spid, cid) then Refused(StatusNotFound)
      else
        var sps := seq(|st.storypoints|, k requires 0 <= k < |st.storypoints| =>
          if st.storypoints[k].id == spid && st.storypoints[k].companyId == cid
          then Patched(st.storypoints[k], p) else st.storypoints[k]);
        Served(StatusOk, st.(storypoints := sps), ())
  }

  /** DELETE /api/company/:company_id/storypoints/:storypoint_id: company
      guards, 404 unless the storypoint belongs to the company, then the
      record goes and its id is pulled from the company's `storypoint_ids`.
      Attached files are left where they are. */
  function DeleteStorypoint(st: Store, sv: Services, header: string, cid: Id, spid: Id): (r: Reply<()>)
    ensures CompanyGate(st, sv, header, cid).Stop? ==> r == Refused(CompanyGate(st, sv, header, cid).status)
    ensures r.Served? <==> CompanyGate(st, sv, header, cid).Pass? && StorypointIn(st, spid, cid)
    ensures r.Refused? && CompanyGate(st, sv, header, cid).Pass? ==> r.status == StatusNotFound
    ensures r.Served? ==> r.status == StatusOk
    ensures r.Served? ==> !StorypointExists(r.next, spid)
    ensures r.Served? ==> forall k :: 0 <= k < |st.storypoints| && st.storypoints[k].id != spid ==>
                            st.storypoints[k] in r.next.storypoints
    ensures r.Served? ==> forall k :: 0 <= k < |r.next.storypoints| ==> r.next.storypoints[k] in st.storypoints
    ensures r.Served? ==> r.next == st.(storypoints := DropStorypoint(st.storypoints, spid),
                                        companies := PullStorypointId(st.companies, cid, spid))
  {
    match CompanyGate(st, sv, header, cid)
    case Stop(s) => Refused(s)
    case Pass(_) =>
      if !StorypointIn(st, spid, cid) then Refused(StatusNotFound)
      else
        Served(StatusOk, st.(storypoints := DropStorypoint(st.storypoints, spid), companies := PullStorypointId(st.companies, cid, spid)), ())
  }

  // ---- users ----

  /** The `user` body of POST .../users. */
  datatype NewUser = NewUser(fullname: string, email: string, password: string)

  /** POST /api/company/:company_id/users: here `companyExists` (404) runs
      before `verifyJWT` (401) and membership (403); then 409 if the e-mail is
      taken in the company, `checkEmail` (409 anywhere, 400 malformed) and
      `checkPasssword` (400). The new user's id is appended to `user_ids`. */
  function AddUser(st: Store, sv: Services, cfg: Config, header: string, cid: Id, req: NewUser, now: int): (r: Reply<Id>)
    ensures r.status == StatusNotFound <==> !CompanyExists(st, cid)
    ensures r.status == StatusUnauthorized <==> CompanyExists(st, cid) && VerifyJwt(st, sv, header).Stop?
    ensures r.status == StatusForbidden <==>
      CompanyExists(st, cid) && VerifyJwt(st, sv, header).Pass? && !IsMember(st, VerifyJwt(st, sv, header).caller.subject, cid)
    ensures r.status == StatusConflict <==> CompanyGate(st, sv, header, cid).Pass? && EmailInUse(st, req.email)
    ensures r.status == StatusBadRequest <==>
      CompanyGate(st, sv, header, cid).Pass? && !EmailInUse(st, req.email) &&
      ((cfg.emailValidation && !sv.emailPattern(req.email)) || !PasswordAccepted(cfg, req.password))
    ensures r.Served? <==>
      CompanyGate(st, sv, header, cid).Pass? && !EmailInUse(st, req.email)
      && !(cfg.emailValidation && !sv.emailPattern(req.email)) && PasswordAccepted(cfg, req.password)
    ensures r.Refused? ==> r.status in {StatusNotFound, StatusUnauthorized, StatusForbidden, StatusConflict, StatusBadRequest}
    ensures r.Served? ==> r.status == StatusCreated && !(r.body in UserIds(st.users))
    ensures r.Served? ==> r.next == st.(
      users := st.users + [User(r.body, req.fullname, req.email, sv.hashPassword(req.password), now, cid)],
      companies := PushUserId(st.companies, cid, r.body))
  {
    if !CompanyExists(st, cid) then Refused(StatusNotFound)
    else match VerifyJwt(st, sv, header)
      case Stop(s) => Refused(s)
      case Pass(c) =>
        if !IsMember(st, c.subject, cid) then Refused(StatusForbidden)
        else if exists i :: 0 <= i < |st.users| && st.users[i].companyId == cid && st.users[i].email == req.email then
          Refused(StatusConflict)
        else match EmailVerdict(st, sv, cfg, req.email)
          case Some(s) => Refused(s)
          case None =>
            if !PasswordAccepted(cfg, req.password) then Refused(StatusBadRequest)
            else
              var id := FreshId(UserIds(st.users));
              var u := User(id, req.fullname, req.email, sv.hashPassword(req.password), now, cid);
              Served(StatusCreated, st.(users := st.users + [u], companies := PushUserId(st.companies, cid, id)), id)
  }

  /** The `user` body of PUT .../users/:user_id. */
  datatype UserPatch = UserPatch(fullname: Option<string>, email: Option<string>, password: Option<string>)

  /** The checks a user edit runs after the guards: a truthy e-mail goes
      through `checkEmail`, a truthy password through `checkPasssword`. */
  function UserPatchVerdict(st: Store, sv: Services, cfg: Config, p: UserPatch): (v: Option<int>)
    ensures v.None? <==>
      (Given(p.email) ==> !EmailInUse(st, p.email.value) && !(cfg.emailValidation && !sv.emailPattern(p.email.value)))
      && (Given(p.password) ==> PasswordAccepted(cfg, p.password.value))
    ensures v.Some? ==> v.value in {StatusConflict, StatusBadRequest}
    ensures Given(p.email) && EmailVerdict(st, sv, cfg, p.email.value).Some? ==> v == EmailVerdict(st, sv, cfg, p.email.value)
    ensures (!Given(p.email) || EmailVerdict(st, sv, cfg, p.email.value).None?) && Given(p.password) && !PasswordAccepted(cfg, p.password.value) ==>
      v == Some(StatusBadRequest)
  {
    if Given(p.email) && EmailVerdict(st, sv, cfg, p.email.value).Some? then EmailVerdict(st, sv, cfg, p.email.value)
    else if Given(p.password) && !PasswordAccepted(cfg, p.password.value) then Some(StatusBadRequest)
    else None
  }

  function UserPatched(sv: Services, u: User, p: UserPatch): (r: User)
    ensures r.id == u.id && r.companyId == u.companyId && r.createdAt == u.createdAt
    ensures r.email == (if Given(p.email) then p.email.value else u.email)
    ensures r.password == (if Given(p.password) then sv.hashPassword(p.password.value) else u.password)
    ensures r.fullname == (if Given(p.fullname) then p.fullname.value else u.fullname)
  {
    u.(email := if Given(p.email) then p.email.value else u.email,
       password := if Given(p.password) then sv.hashPassword(p.password.value) else u.password,
       fullname := if Given(p.fullname) then p.fullname.value else u.fullname)
  }

  /** PUT /api/company/:company_id/users/:user_id: company guards, 404 unless
      the user belongs to the company, the e-mail and password checks, then
      the update (by id). */
  function EditUser(st: Store, sv: Services, cfg: Config, header: string, cid: Id, uid: Id, p: UserPatch): (r: Reply<()>)
    ensures CompanyGate(st, sv, header, cid).Stop? ==> r == Refused(CompanyGate(st, sv, header, cid).status)
    ensures CompanyGate(st, sv, header, cid).Pass? && !IsMember(st, uid, cid) ==> r == Refused(StatusNotFound)
    ensures CompanyGate(st, sv, header, cid).Pass? && IsMember(st, uid, cid) && UserPatchVerdict(st, sv, cfg, p).Some? ==>
      r == Refused(UserPatchVerdict(st, sv, cfg, p).value)
    ensures r.Served? <==> CompanyGate(st, sv, header, cid).Pass? && IsMember(st, uid, cid) && UserPatchVerdict(st, sv, cfg, p).None?
    ensures r.Served? ==> r.status == StatusOk
    ensures r.Served? ==> r.next.companies == st.companies && r.next.storypoints == st.storypoints
                          && r.next.files == st.files && r.next.blacklist == st.blacklist
    ensures r.Served? ==> |r.next.users| == |st.users| && forall k :: 0 <= k < |st.users| ==>
      r.next.users[k] == if st.users[k].id == uid then UserPatched(sv, st.users[k], p) else st.users[k]
  {
    match CompanyGate(st, sv, header, cid)
    case Stop(s) => Refused(s)
    case Pass(_) =>
      if !IsMember(st, uid, cid) then Refused(StatusNotFound)
      else match UserPatchVerdict(st, sv, cfg, p)
        case Some(s) => Refused(s)
        case None =>
          var us := seq(|st.users|, k requires 0 <= k < |st.users| =>
            if st.users[k].id == uid then UserPatched(sv, st.users[k], p) else st.users[k]);
          Served(StatusOk, st.(users := us), ())
  }

  /** DELETE /api/company/:company_id/users/:user_id: company guards, 404
      unless the user belongs to the company, then the record goes and its id
      is pulled from the company's `user_ids`. */
  function DeleteUser(st: Store, sv: Services, header: string, cid: Id, uid: Id): (r: Reply<()>)
    ensures CompanyGate(st, sv, header, cid).Stop? ==> r == Refused(CompanyGate(st, sv, header, cid).status)
    ensures r.Served? <==> CompanyGate(st, sv, header, cid).Pass? && IsMember(st, uid, cid)
    ensures r.Refused? && CompanyGate(st, sv, header, cid).Pass? ==> r.status == StatusNotFound
    ensures r.Served? ==> r.status == StatusOk
    ensures r.Served? ==> !(uid in UserIds(r.next.users))
    ensures r.Served? ==> forall k :: 0 <= k < |st.users| && st.users[k].id != uid ==> st.users[k] in r.next.users
    ensures r.Served? ==> forall k :: 0 <= k < |r.next.users| ==> r.next.users[k] in st.users
    ensures r.Served? ==> r.next == st.(users := DropUser(st.users, uid), companies := PullUserId(st.companies, cid, uid))
  {
    match CompanyGate(st, sv, header, cid)
    case Stop(s) => Refused(s)
    case Pass(_) =>
      if !IsMember(st, uid, cid) then Refused(StatusNotFound)
      else
        Served(StatusOk, st.(users := DropUser(st.users, uid), companies := PullUserId(st.companies, cid, uid)), ())
  }

  // ---- company registration ----

  /** The `company` body of POST /api/company. */
  datatype Registration = Registration(
    name: string, description: Option<string>, fullname: string, email: string, password: string)

  /** What a successful registration answers. */
  datatype Registered = Registered(companyId: Id, userId: Id, token: string)

  /** `company.findOne({name})` */
  predicate NameTaken(st: Store, name: string) {
    exists i :: 0 <= i < |st.companies| && st.companies[i].name == name
  }

  /** The checks registration runs: `checkEmail` (409, 400),
      `checkPasssword` (400), then the company name (409). */
  function RegistrationVerdict(st: Store, sv: Services, cfg: Config, req: Registration): (v: Option<int>)
    ensures v.None? <==>
      !EmailInUse(st, req.email) && !(cfg.emailValidation && !sv.emailPattern(req.email))
      && PasswordAccepted(cfg, req.password) && !NameTaken(st, req.name)
    ensures v.Some? ==> v.value in {StatusConflict, StatusBadRequest}
    ensures EmailVerdict(st, sv, cfg, req.email).Some? ==> v == EmailVerdict(st, sv, cfg, req.email)
    ensures EmailVerdict(st, sv, cfg, req.email).None? && !PasswordAccepted(cfg, req.password) ==> v == Some(StatusBadRequest)
    ensures EmailVerdict(st, sv, cfg, req.email).None? && PasswordAccepted(cfg, req.password) && NameTaken(st, req.name) ==>
      v == Some(StatusConflict)
  {
    match EmailVerdict(st, sv, cfg, req.email)
    case Some(s) => Some(s)
    case None =>
      if !PasswordAccepted(cfg, req.password) then Some(StatusBadRequest)
      else if NameTaken(st, req.name) then Some(StatusConflict)
      else None
  }

  /** The writes of a registration: a company with empty id lists, its first
      user, and that user's id pushed onto `user_ids`. */
  function Registering(st: Store, sv: Services, req: Registration, now: int): (res: (Store, Registered))
    ensures !CompanyExists(st, res.1.companyId) && !(res.1.userId in UserIds(st.users))
    ensures res.1.token == sv.signToken(Claim(res.1.userId, req.email))
    ensures res.0 == st.(
      companies := st.companies + [Company(res.1.companyId, req.name, if Given(req.description) then req.description.value else "",
                                           now, [res.1.userId], [])],
      users := st.users + [User(res.1.userId, req.fullname, req.email, sv.hashPassword(req.password), now, res.1.companyId)])
  {
    var cid := FreshId(CompanyIds(st.companies));
    var uid := FreshId(UserIds(st.users));
    // inserted with empty `user_ids`, then the user's id is pushed onto them
    var company := Company(cid, req.name, if Given(req.description) then req.description.value else "", now, [uid], []);
    var user := User(uid, req.fullname, req.email, sv.hashPassword(req.password), now, cid);
    var next := st.(companies := st.companies + [company], users := st.users + [user]);
    (next, Registered(cid, uid, sv.signToken(Claim(uid, req.email))))
  }

  /** POST /api/company as written. `verifyJWT` answers 401 itself whenever
      the caller is not logged in; the handler then carries on, and the
      next `res.send` throws because the answer is already out, which ends
      the handler. So a caller that is not logged in always reads 401, while
      the company and its user are still created when every check passes. */
  function RegisterCompanyAsWritten(st: Store, sv: Services, cfg: Config, header: string, req: Registration, now: int): (r: Reply<()>)
    ensures r.status == StatusForbidden <==> VerifyJwt(st, sv, header).Pass?
    ensures r.status == StatusUnauthorized <==> VerifyJwt(st, sv, header).Stop?
    ensures r.status != StatusCreated
    ensures r.Served? <==> VerifyJwt(st, sv, header).Stop? && RegistrationVerdict(st, sv, cfg, req).None?
    ensures r.Served? ==> r.next == Registering(st, sv, req, now).0
    ensures r.After(st) == RegisterCompany(st, sv, cfg, header, req, now).After(st)
  {
    match VerifyJwt(st, sv, header)
    case Pass(_) => Refused(StatusForbidden)
    case Stop(s) =>
      if RegistrationVerdict(st, sv, cfg, req).Some? then Refused(s)
      else Served(s, Registering(st, sv, req, now).0, ())
  }

  /** POST /api/company as evidently intended: a logged-in caller gets 403,
      anyone else goes through the checks and on success gets 201 with the
      new ids and a token for the new user. */
  function RegisterCompany(st: Store, sv: Services, cfg: Config, header: string, req: Registration, now: int): (r: Reply<Registered>)
    ensures r.status == StatusForbidden <==> VerifyJwt(st, sv, header).Pass?
    ensures VerifyJwt(st, sv, header).Stop? && RegistrationVerdict(st, sv, cfg, req).Some? ==>
      r == Refused(RegistrationVerdict(st, sv, cfg, req).value)
    ensures r.Served? <==> VerifyJwt(st, sv, header).Stop? && RegistrationVerdict(st, sv, cfg, req).None?
    ensures r.Served? ==> r.status == StatusCreated && (r.next, r.body) == Registering(st, sv, req, now)
  {
    match VerifyJwt(st, sv, header)
    case Pass(_) => Refused(StatusForbidden)
    case Stop(_) =>
      match RegistrationVerdict(st, sv, cfg, req)
      case Some(s) => Refused(s)
      case None =>
        var (next, out) := Registering(st, sv, req, now);
        Served(StatusCreated, next, out)
  }

  /** As written, a successful registration by a caller who is not logged in
      is answered 401 while the company and its user are stored: on the
      empty database with validation off, any registration does this. */
  lemma RegistrationAnswers401WhileRegistering(sv: Services, cfg: Config, req: Registration, now: int)
    requires !cfg.emailValidation && !cfg.passwordValidation
    ensures var r := RegisterCompanyAsWritten(Store([], [], [], [], []), sv, cfg, "", req, now);
      r.Served? && r.status == StatusUnauthorized && |r.next.companies| == 1 && |r.next.users| == 1
      && r.next.users[0].email == req.email
  {
  }

  /** Registration and login complete each other: the registered user can
      log in straight away with the password it registered, and receives the
      very token the registration answered with. (The password check is the
      bcrypt comparison, which accepts a plaintext against its own digest.) */
  lemma RegisteredUserCanLogIn(st: Store, sv: Services, cfg: Config, header: string, req: Registration, now: int)
    requires RegisterCompany(st, sv, cfg, header, req, now).Served?
    requires sv.passwordMatches(req.password, sv.hashPassword(req.password))
    ensures var r := RegisterCompany(st, sv, cfg, header, req, now);
      && IsMember(r.next, r.body.userId, r.body.companyId)
      && Login(r.next, sv, req.email, req.password) == Served(StatusOk, r.next, r.body.token)
  {
    var r := RegisterCompany(st, sv, cfg, header, req, now);
    var n := r.next;
    var u := n.users[|st.users|];
    assert u.email == req.email && u.id == r.body.userId && u.companyId == r.body.companyId;
    assert EmailInUse(n, req.email);
    var found := UserByEmail(n, req.email).value;
    assert found == u by {
      var k :| 0 <= k < |n.users| && n.users[k] == found;
    }
  }
}
